=== FILE: README.md ===
# QuantRPmoderator moderation engine in Dafny

This project models the moderation core of the QuantRPmoderator Telegram bot
(`bot.py`). Under the bot's SQL, Telegram and Redis plumbing sits a small
deterministic engine, and the model states it as pure transitions over a world:

- the warning ledger, a map from (user, chat) to a count;
- the ban table, a map from (user, chat) to a reason;
- the punishment log, a sequence of rows;
- the trace of moderation calls made to the chat provider (ban, unban,
  restrict), each with its outcome.

The chat provider and the store are given as data:

- whether the store is reachable;
- which provider call fails in which chat, either with a bad request or with
  another error;
- which users are present in which chats;
- the Telethon dialog listing, with the bot's status in each chat and the
  flood-wait signals it raises.

Modules, following the program's structure:

- `Types`: ids, `Option`, occurrence counting.
- `Ledger`: `add_warning`, `remove_warning`, `get_warning_count`.
- `Provider`: provider operations, faults, dialogs, the environment.
- `World`: the world, the punishment rows, `add_ban`, `remove_ban`,
  `remove_mute`, `log_punishment`.
- `BotChats`: `get_bot_chats`, covering id conversion, the admin filter and the
  flood retry.
- `Tasks`: `ModerationTask`.
- `Propagation`: the per-chat step and the loop over the other chats that
  `ban_user_action` and `kick_user_action` share.
- `Handlers`: the eight action handlers.
- `Worker`: the Redis queue and `moderation_worker`.
- `Markdown`: `escape_markdown_v2`.
- `Filter`: `filter_messages` and `get_filter_status`.
- `Chunks`: the announcement's chunks of 50 mentions.

The model follows the code as written, including these behaviours:

- A handler catches only `TelegramBadRequest`, per chat. Any other provider
  error escapes the handler, ends its propagation loop, and is swallowed by
  the worker.
- The origin notice is sent inside the same `try` as the origin ban or kick.
  If that notice fails, the handler leaves before propagating.
- `unmute_user_action` deletes the user's "mute" rows of that chat from the
  punishments table. It does so only after the unmute notice has been sent.
  So the log is not append-only, but only through an unmute task on the
  queue.
- Nothing in `bot.py` enqueues an `unban`, `unmute` or `unwarn` task. The
  only task types it pushes are kick, ban, warn, mute and info
  (bot.py:905, 942, 976, 1024, 1175). The `/unban`, `/unmute` and `/unwarn`
  commands act directly (bot.py:1126-1150, 1040-1080, 1085-1115). `/unmute`
  never calls `remove_mute`, so its mute rows stay. The worker's three
  branches, and `Handlers.UnbanUser`, `Handlers.UnmuteUser` and
  `Handlers.UnwarnUser`, run only for tasks pushed onto the queue from
  outside `bot.py`.
- The warning counter has no cap. A fourth warning returns 4 and escalates
  again.
- The three-warning escalation only bans in the origin chat. It logs a
  "kick" with reason "3 попередження", never unbans, writes no ban row, and
  does not propagate.
- In `unwarn_user_action` the test `warn_count >= 0` is always true, so the
  "no warnings" reply cannot happen.

## Model

| member | source | states |
|---|---|---|
| Ledger.AddWarning | bot.py:361-385 | Creates a row with count 1 when there is none, and otherwise adds one and returns the new count. Returns 0 and leaves the table alone when the store fails. Other keys are unchanged and counts stay positive. |
| Ledger.RemoveWarning | bot.py:388-415 | Decrements only a positive count, so the result is never negative. Deletes the row when it reaches 0. Returns 0 with the table unchanged when there is no positive row or the store fails. Other keys are unchanged. |
| Ledger.WarningCount | bot.py:480-500 | Returns the stored count, or 0 for a missing row or a store error. It is positive only for an existing row. |
| Ledger.CountReadsBack | bot.py:480-500 | `get_warning_count` right after `add_warning` or `remove_warning` reads back the count that call returned. |
| Ledger.AddThenRemove | bot.py:371-382 | Removing a warning right after adding one restores the table exactly. |
| Ledger.RemoveAmbiguity | bot.py:398-409 | A user with no row and a user whose last warning was just removed both get 0. Afterwards neither has a count. |
| Ledger.CountIsUnbounded | bot.py:371-382 | After n warnings starting from no row, the count is n. Nothing caps it at 3. |
| World.World.Log | bot.py:502-523 | `log_punishment` appends exactly one row when the store is reachable. A store error leaves the log unchanged. Nothing else changes. |
| World.World.AddBan | bot.py:418-438 | `add_ban` upserts the reason of the pair: the pair gets a row with that reason, and every other row keeps its reason. A store error changes nothing. |
| World.World.RemoveBan | bot.py:440-456 | `remove_ban` deletes exactly the pair's row and keeps every other row. A store error changes nothing. |
| World.World.RemoveMute | bot.py:458-478 | `remove_mute` leaves no mute row of that (user, chat) when the store is up. Every other row keeps its number of occurrences. A store error changes nothing. Bans, warnings and calls are untouched. |
| World.BanThenUnban | bot.py:418-456 | `remove_ban` after an `add_ban` of a pair that had no row gives back the world exactly as it was. |
| World.DropMutes | bot.py:458-478 | After `remove_mute` no mute row of that (user, chat) remains. Every other row keeps its number of occurrences. |
| BotChats.ToAiogramId | bot.py:305-315 | A channel n becomes -1000000000000 - n and a basic group n becomes -n. Other dialogs have no id. The conversion can be read back, and channel and group ids fall in disjoint ranges. |
| BotChats.IdsInjective | bot.py:307-312 | Two distinct valid dialogs never get the same chat id. |
| BotChats.Scan | bot.py:297-333 | A chat is listed exactly when some dialog converts to it and the bot is administrator or creator there. |
| BotChats.ScanAppend | bot.py:297-333 | Scanning two runs of dialogs in turn equals scanning their concatenation, so the chats come in dialog order. Propagation follows that order. |
| BotChats.ScanNoDup | bot.py:297-333 | Dialogs with distinct ids give a list without repetitions. |
| BotChats.GetBotChats | bot.py:275-345 | Without a Telethon client the answer is empty. Otherwise each flood signal is waited out with exactly one re-invocation, and the final chats are exactly the administered ones among the dialogs reached before any other error. |
| BotChats.FloodsDoNotChangeChats | bot.py:337-340 | A run with flood signals finds the same chats as a run without them. |
| BotChats.GetBotChatsNoDup | bot.py:275-345 | No administered chat is listed twice. |
| Propagation.CallsIn | bot.py:1604-1608 | A kick bans and then unbans, and it unbans only after the ban succeeded. A ban makes a single call. |
| Propagation.ActIn | bot.py:1556-1575 | A chat step is completed exactly when its calls succeed and aborts exactly on a non-bad-request error. It appends its calls and, when completed, its log row. Only a completed ban writes a ban row. Warnings are never touched. |
| Propagation.Propagate | bot.py:1550-1575 | The loop over the chats only appends to the log and the call trace. It keeps every existing ban row, touches no other user's bans, and leaves warnings alone. A kick writes no ban row. |
| Propagation.EligibleMembers | bot.py:1551-1554 | A chat is a propagation target exactly when it is listed, is not the origin, and has the user present. |
| Propagation.EligibleCount | bot.py:1551-1554 | Each target appears as often as it is listed. |
| Propagation.ContinuesPast | bot.py:1573-1575 | A chat that fails with a bad request does not stop the loop. The remaining chats are processed as if it had not been there. |
| Propagation.PropagateCompletes | bot.py:1550-1575 | With only bad requests, propagation never raises. |
| Propagation.PropagateCalls | bot.py:1550-1575 | With only bad requests, the calls are exactly one attempt per target, in list order. |
| Propagation.PropagateLog | bot.py:1550-1575 | With only bad requests, the log gains exactly one row per completed target, in list order, when the store is up. |
| Propagation.PropagatedBanRows | bot.py:1554-1558 | A propagated ban writes the ban row of each target where it completed. |
| Propagation.OneBanCallPerChat | bot.py:1550-1575 | Each chat receives as many ban calls as it is listed as a target. |
| Handlers.ModerateEverywhere | bot.py:1524-1575 | A ban or kick only appends to the log and the call trace. It keeps every ban row and leaves warnings alone. A kick writes no ban row. |
| Handlers.OriginComesFirst | bot.py:1524-1548 | The origin chat's calls and row come first. If the origin step fails or its notice fails, nothing else happens. |
| Handlers.BanUser | bot.py:1499-1577 | A ban never rolls anything back. Existing ban rows stay and warnings are unchanged. |
| Handlers.KickUser | bot.py:1579-1656 | A kick never writes the ban table or the warnings and never rolls back rows or calls. |
| Handlers.BanOriginFailure | bot.py:1524-1548 | When the origin ban fails, the only effect is that one failed call. There is no ban row, no log row and no propagation. |
| Handlers.BanOriginSuccess | bot.py:1524-1528 | A completed origin ban writes the origin ban row and, as the first new log row, the origin "ban" row. Propagation never overwrites them. |
| Handlers.PropagateKeepsOriginRow | bot.py:1551-1553 | Propagation skips the origin chat, so the origin's ban row keeps its reason. |
| Handlers.OriginThenPropagate | bot.py:1524-1575 | With only bad requests and a completed origin step: the origin calls come first, then the calls of each target chat. The origin row comes first, then one row per completed target. |
| Handlers.OriginCompletes | bot.py:1524-1548 | A completed origin step whose notice was sent hands over to propagation over the administered chats. |
| Handlers.BanPropagates | bot.py:1524-1575 | Concretely for a ban: one origin ban call, then one ban call per eligible chat. The log gets the origin "ban" row and then one row per completed target. |
| Handlers.KickPropagates | bot.py:1604-1654 | Concretely for a kick: an origin ban and unban, then a ban and unban per eligible chat. The log gets the origin "kick" row and then one row per completed target. |
| Handlers.KickOriginFailure | bot.py:1604-1626 | An origin kick that does not complete logs nothing and makes only its own calls. |
| Handlers.BanCallsPerChat | bot.py:1550-1575 | Every administered chat other than the origin where the user is present gets exactly one ban call. Every other chat gets none. |
| Handlers.BanCallsPerDialogChat | bot.py:297-315 | The same count holds whenever the dialog listing has no repeats and every dialog is valid, because such dialogs get distinct chat ids. |
| Handlers.WarnUser | bot.py:1691-1715 | Records the warning and always logs a "warn" row. There is exactly one origin ban call exactly when the returned count is at least 3. The "kick" row with reason "3 попередження" follows only if that ban succeeded. No ban row is written and nothing propagates. |
| Handlers.MuteMinutes | bot.py:1664 | A missing or zero duration becomes 60. Any other duration is kept. |
| Handlers.MuteUser | bot.py:1658-1688 | Makes one restrict call in the origin. A row with the effective duration is written only when the restriction succeeded and the store is up. |
| Handlers.UnbanUser | bot.py:1844-1852 | Unbans in the origin only. After a successful unban with the store up, the ban table is the old one minus exactly that pair. Otherwise the ban table is unchanged. Rows in other chats stay. |
| Handlers.UnmuteUser | bot.py:1854-1871 | After a successful unmute whose notice was sent, no mute row of that (user, chat) remains. Other rows keep their occurrences. Otherwise the log is unchanged. |
| Handlers.UnwarnUser | bot.py:1873-1881 | Applies `remove_warning` and always replies with the count it returned. That count is 0 for a user with no row or with the store down. The "no warnings" reply is unreachable. |
| Handlers.WarnThenUnwarn | bot.py:1873-1876 | An unwarn right after a warn gives the ledger back exactly as it was. |
| Handlers.UnbanKeepsPropagatedRows | bot.py:1844-1852 | An unban after a propagated ban removes only the origin ban row. The rows in other chats and the log stay. |
| Handlers.MuteThenUnmute | bot.py:1658-1688 | After a logged mute and a successful unmute, no mute row of that user in that chat remains. |
| Handlers.InfoMatchesPropagation | bot.py:1752-1777 | The other chats `/info` reports are exactly the targets a ban of the same user would propagate to. |
| Worker.Push | bot.py:641-642 | `rpush` appends at the tail and replies with the new length, which `add_task_to_queue` drops. |
| Worker.QueueLength | bot.py:644-645 | The length is 0 exactly for an empty queue. |
| Worker.QueueLengthCounts | bot.py:641-645 | The length counts elements. A push adds one and a pop removes one. Right after a push, the length is the position of the pushed task, which is the "Позиція" the producers report (bot.py:913-914). |
| Worker.Pop | bot.py:1473-1475 | `blpop` takes the head, and head plus rest give back the queue. |
| Worker.PushPop | bot.py:641-642 | Pushing at the tail does not change which element comes out next. |
| Worker.Dispatch | bot.py:1476-1495 | Each of the eight task types goes to its handler. Undecodable payloads, unknown types and `info` leave the world unchanged. |
| Worker.DrainAppend | bot.py:1471-1497 | Draining a concatenation is draining each part in turn, so each element is handled once, in enqueue order. |
| Worker.PushThenDrain | bot.py:641-642 | A task pushed onto the tail is handled exactly once, after everything already queued. |
| Worker.IgnoredPayloadsChangeNothing | bot.py:1476-1497 | Dropping the undecodable and unknown payloads from the queue does not change the outcome. |
| Worker.HandledIsKnown | bot.py:1476-1495 | The tasks handed to handlers are the known-type payloads, the same elements in the same order. |
| Worker.RunWorker | bot.py:1471-1497 | The worker loop reaches the state of handling each element once in order, even when a handler raised. The tasks it hands to handlers are exactly the known-type tasks, in queue order. |
| Worker.ThreeWarnsEscalate | bot.py:1699-1710 | Three warnings of a user with no row give a count of 3. The log gets warn, warn, warn and one "kick" row with reason "3 попередження". There is exactly one ban call, in the origin, and the ban table is unchanged. |
| Markdown.Replace | bot.py:625-626 | One `str.replace` pass lengthens the text by the number of occurrences of that character. |
| Markdown.ReplaceStep | bot.py:625-626 | One more `replace` pass, for a character not escaped yet, escapes exactly that character as well. |
| Markdown.EscapeLength | bot.py:623-627 | The escape is one character longer per special character. |
| Markdown.UnescapeEscape | bot.py:623-627 | Removing the inserted backslashes gives back the original text. |
| Markdown.EscapedArePreceded | bot.py:623-627 | Every special character of the output comes right after a backslash. |
| Markdown.FreshSpecial | bot.py:624 | The 17 special characters are distinct, and none of them is the backslash. |
| Markdown.EscapeMarkdownV2 | bot.py:623-627 | The 17 sequential passes equal the one-pass escape, and every special character of the output has a backslash in front. `Markdown.UnescapeEscape` and `Markdown.EscapeLength` state the rest of what that escape does. |
| Filter.FilterEnabled | bot.py:561-578 | The filter is off only when the store is reachable and has a row for the chat that says off. A missing row or a store error means on. |
| Filter.Contains | bot.py:1436 | Python's `word in text` holds exactly when the word is a contiguous slice of the text. |
| Filter.FirstMatch | bot.py:1435-1436 | Finds the first word, in the set's iteration order, that occurs, and no word before it occurs. No answer means no word occurs. |
| Filter.FilterMessage | bot.py:1429-1469 | There is one restriction of the sender exactly when the filter is on, the text is non-empty and some word occurs. At most one restriction happens, because of `break`. A row naming the first matching word, for 1440 minutes and with no moderator, is written only after a successful restriction. |
| Chunks.Chunks | bot.py:1217-1218 | Every chunk holds between 1 and 50 mentions, and all but the last hold exactly 50. |
| Chunks.ChunkCount | bot.py:1218 | There are ceil(n / 50) chunks. |
| Chunks.FlattenChunks | bot.py:1218 | The chunks together are the participant list: none lost, repeated or reordered. |
| Chunks.ChunkContents | bot.py:1218 | Chunk i is exactly the slice from position 50·i up to 50·i + 50, cut at the end of the list. |
| Chunks.FirstChunk | bot.py:1222 | The first announcement carries the first 50 participants, or all of them when there are fewer. |

## Left out

- SQL connections, SSL set-up and connection closing. The store is the three maps plus the log, and "reachable" is one flag per handler run.
- Failure inside `log_punishment`, `add_ban` or `remove_ban` alone. These catch their own errors. The model has the store either up or down for a whole handler run, so one write cannot fail while another succeeds.
- The audio send in ban and kick. Its file path is hard-coded and assumed absent, so the send is skipped.
- `asyncio.sleep` delays, and all reply and notice texts. Only whether a send fails is modelled, as a fault on the send operation in that chat, because that decides control flow. The same fault also stands for the other calls that catch only `TelegramBadRequest` and so end the handler on any other error:
  - `safe_delete_message(reply)` inside the origin `try` (bot.py:1534, 1614). It catches only `TelegramBadRequest` (bot.py:667-672).
  - `bot.get_chat` in both propagation loops (bot.py:1564, 1642). It runs after that chat's ban row and log row are written.
- Timestamps and `until_date`. The mute row carries its duration in minutes, and the filter's mute is fixed at 1440.
- `info_user_action` beyond its membership list: statuses, chat titles and the formatted text.
- Telethon and aiogram client set-up, `main`, `init_db` and `update_all_chat_titles`.
- `get_user_data`, `cmd_mute` argument parsing and the other command handlers that produce tasks. Only the queue they push to is modelled.
- `upsert_telegram_user`, which filter_messages calls first. It writes a user table the engine never reads.
- Lower-casing in `filter_messages`. `Filter.FilterMessage` takes the text already lower-cased, because Python's Unicode `lower()` is not modelled.
- The filter toggle and the `WELCOME_MESSAGE` race between concurrent handlers. The model is sequential.
- The worker's endless polling loop and its 2-second sleep on an empty queue. `Worker.RunWorker` drains a finite queue with the provider and store fixed for the run.
- Changes of presence during a run. Presence is fixed for the whole handler run. The source calls `is_user_in_chat` afresh for each listed chat (bot.py:1554, 1632), so it would find a banned or kicked user gone. In the model, a chat that `get_bot_chats` listed twice is therefore acted in twice (`Propagation.EligibleCount`). With distinct dialog ids no chat is listed twice (`BotChats.GetBotChatsNoDup`).
- Each `get_chat_member` call of `get_bot_chats`. A chat whose status lookup failed is simply absent from the status map.
- Handlers.BanUser: its own contract states only the frame. What a ban does in each chat is stated by `Handlers.BanOriginFailure`, `Handlers.BanOriginSuccess`, `Handlers.BanPropagates` and `Handlers.BanCallsPerChat`. The case where a non-bad-request error cuts propagation short is covered only by `Handlers.ModerateEverywhere`'s frame.
- Handlers.KickUser: the same split, with `Handlers.KickPropagates` and `Handlers.KickOriginFailure`.
- Worker.RunWorker: the queue is always reachable in the model. In `bot.py` a Redis error from `blpop` (bot.py:1473) is raised outside the `try`. It ends `moderation_worker` for good, and no later task is delivered. Only decoding and handler exceptions are swallowed.
- Filter.FilterMessage: it does not report whether an exception escapes `filter_messages`. Every write comes before the reply or error notice, and the loop ends there either way.
- The order of `FORBIDDEN_WORDS`. It is a Python set (bot.py:603-619), so its iteration order follows string hashing and can change between runs. `Filter.FirstMatch` takes whatever order is given.

=== FILE: bot_chats.dfy ===
/**
 * `get_bot_chats`: list Telethon dialogs, convert their ids to aiogram chat
 * ids, keep the chats where the bot is administrator or creator, and start
 * over after every flood-wait signal. The source retries without a cap; here
 * the finite list of signals the provider raises is the fuel.
 */
module BotChats {
  import opened Types
  import opened Provider

  /** aiogram ids of channels and supergroups are -10^12 - (Telethon id). */
  const ChannelOffset: int := 1000000000000

  /** Telegram ids as Telethon reports them: channels positive, basic groups positive and below the offset. */
  predicate ValidDialog(d: Dialog)
  {
    match d
    case ChannelDialog(n) => n > 0
    case GroupDialog(n) => 0 < n <= ChannelOffset
    case OtherDialog => true
  }

  /** The aiogram id of a chat, read back: below -10^12 it is a channel, otherwise a basic group. */
  function FromAiogramId(c: ChatId): Dialog
  {
    if c < -ChannelOffset then ChannelDialog(-ChannelOffset - c) else GroupDialog(-c)
  }

  /** Telethon id to aiogram id; private chats and other entities have none and are skipped. */
  function ToAiogramId(d: Dialog): (r: Option<ChatId>)
    ensures r.Some? <==> !d.OtherDialog?
    ensures r.Some? && ValidDialog(d) ==> FromAiogramId(r.value) == d
    ensures d.ChannelDialog? && ValidDialog(d) ==> r.value < -ChannelOffset
    ensures d.GroupDialog? && ValidDialog(d) ==> -ChannelOffset <= r.value < 0
  {
    match d
    case ChannelDialog(n) => Some(-ChannelOffset - n)
    case GroupDialog(n) => Some(-n)
    case OtherDialog => None
  }

  /** Distinct valid dialogs never share an aiogram id. */
  lemma IdsInjective(d1: Dialog, d2: Dialog)
    requires ValidDialog(d1) && ValidDialog(d2) && d1 != d2
    requires ToAiogramId(d1).Some?
    ensures ToAiogramId(d1) != ToAiogramId(d2)
  {
  }

  /** The statuses `chat_member.status in ["administrator", "creator"]` accepts. */
  predicate IsAdmin(status: map<ChatId, MemberStatus>, c: ChatId)
  {
    c in status && (status[c] == Administrator || status[c] == Creator)
  }

  /** `c` is the id of one of `ds` where the bot administers. */
  ghost predicate Administered(ds: seq<Dialog>, status: map<ChatId, MemberStatus>, c: ChatId)
  {
    exists i :: 0 <= i < |ds| && ToAiogramId(ds[i]) == Some(c) && IsAdmin(status, c)
  }

  /** One pass over the dialogs; `ScanAppend` shows the chats come in dialog order. */
  function Scan(ds: seq<Dialog>, status: map<ChatId, MemberStatus>): (r: seq<ChatId>)
    ensures forall c :: c in r <==> Administered(ds, status, c)
    ensures |r| <= |ds|
    decreases |ds|
  {
    if |ds| == 0 then []
    else
      var rest := Scan(ds[1..], status);
      assert forall c :: Administered(ds[1..], status, c) ==> Administered(ds, status, c) by {
        forall c | Administered(ds[1..], status, c) ensures Administered(ds, status, c) {
          var i :| 0 <= i < |ds[1..]| && ToAiogramId(ds[1..][i]) == Some(c) && IsAdmin(status, c);
          assert ds[i + 1] == ds[1..][i];
        }
      }
      assert forall c :: Administered(ds, status, c) && ToAiogramId(ds[0]) != Some(c) ==> Administered(ds[1..], status, c) by {
        forall c | Administered(ds, status, c) && ToAiogramId(ds[0]) != Some(c) ensures Administered(ds[1..], status, c) {
          var i :| 0 <= i < |ds| && ToAiogramId(ds[i]) == Some(c) && IsAdmin(status, c);
          assert i > 0;
          assert ds[1..][i - 1] == ds[i];
        }
      }
      match ToAiogramId(ds[0])
      case Some(c) => if IsAdmin(status, c) then [c] + rest else rest
      case None => rest
  }

  /**
   * Scanning two runs of dialogs one after the other is scanning their
   * concatenation, so each dialog's chat sits where the dialog does.
   */
  lemma {:induction false} ScanAppend(ds1: seq<Dialog>, ds2: seq<Dialog>, status: map<ChatId, MemberStatus>)
    ensures Scan(ds1 + ds2, status) == Scan(ds1, status) + Scan(ds2, status)
    decreases |ds1|
  {
    if |ds1| > 0 {
      assert (ds1 + ds2)[0] == ds1[0] && (ds1 + ds2)[1..] == ds1[1..] + ds2;
      ScanAppend(ds1[1..], ds2, status);
    } else {
      assert ds1 + ds2 == ds2;
    }
  }

  /** Pairwise distinct aiogram ids among the dialogs that have one. */
  predicate DistinctIds(ds: seq<Dialog>)
  {
    forall i, j :: 0 <= i < j < |ds| && ToAiogramId(ds[i]).Some? ==> ToAiogramId(ds[i]) != ToAiogramId(ds[j])
  }

  /** A list of distinct valid dialogs (what `iter_dialogs` yields) has distinct ids. */
  lemma ValidDialogsHaveDistinctIds(ds: seq<Dialog>)
    requires NoDup(ds)
    requires forall i :: 0 <= i < |ds| ==> ValidDialog(ds[i])
    ensures DistinctIds(ds)
  {
    forall i, j | 0 <= i < j < |ds| && ToAiogramId(ds[i]).Some?
      ensures ToAiogramId(ds[i]) != ToAiogramId(ds[j])
    {
      IdsInjective(ds[i], ds[j]);
    }
  }

  /** Distinct ids give a chat list without repetitions. */
  lemma {:induction false} ScanNoDup(ds: seq<Dialog>, status: map<ChatId, MemberStatus>)
    requires DistinctIds(ds)
    ensures NoDup(Scan(ds, status))
    decreases |ds|
  {
    if |ds| > 0 {
      assert DistinctIds(ds[1..]) by {
        forall i, j | 0 <= i < j < |ds[1..]| && ToAiogramId(ds[1..][i]).Some?
          ensures ToAiogramId(ds[1..][i]) != ToAiogramId(ds[1..][j])
        {
          assert ds[1..][i] == ds[i + 1] && ds[1..][j] == ds[j + 1];
        }
      }
      ScanNoDup(ds[1..], status);
      var rest := Scan(ds[1..], status);
      match ToAiogramId(ds[0])
      case Some(c) =>
        if IsAdmin(status, c) {
          assert c !in rest;
          var r := [c] + rest;
          forall i, j | 0 <= i < j < |r| ensures r[i] != r[j] {
            if i == 0 {
              assert r[j] == rest[j - 1];
            } else {
              assert r[i] == rest[i - 1] && r[j] == rest[j - 1];
            }
          }
        }
      case None =>
    }
  }

  /** The chats found, the waits performed (one per flood signal), and how often the function ran. */
  datatype Enumeration = Enumeration(chats: seq<ChatId>, waits: seq<nat>, invocations: nat)

  /** The dialogs the completing invocation gets through before a non-flood error, if any. */
  function Reached(l: Listing): (r: seq<Dialog>)
    ensures |r| <= |l.dialogs| && r == l.dialogs[..|r|]
    ensures l.cut.None? ==> r == l.dialogs
  {
    match l.cut
    case None => l.dialogs
    case Some(k) => if k < |l.dialogs| then l.dialogs[..k] else l.dialogs
  }

  /**
   * `get_bot_chats`. Without a Telethon client the answer is empty at once.
   * Each flood signal is waited out and followed by exactly one fresh
   * invocation, whose partial results from before the signal are discarded;
   * once the signals stop, the chats are the administered ones among the
   * dialogs reached.
   */
  function GetBotChats(l: Listing): (r: Enumeration)
    ensures !l.ready ==> r == Enumeration([], [], 1)
    ensures l.ready ==> r.waits == l.floods && r.invocations == |l.floods| + 1
    ensures l.ready ==> forall c :: c in r.chats <==> Administered(Reached(l), l.status, c)
    ensures forall c :: c in r.chats ==> IsAdmin(l.status, c)
    decreases |l.floods|
  {
    if !l.ready then Enumeration([], [], 1)
    else if |l.floods| > 0 then
      var rest := GetBotChats(l.(floods := l.floods[1..]));
      assert [l.floods[0]] + l.floods[1..] == l.floods;
      Enumeration(rest.chats, [l.floods[0]] + rest.waits, rest.invocations + 1)
    else
      var chats := Scan(Reached(l), l.status);
      assert forall c :: c in chats ==> IsAdmin(l.status, c) by {
        forall c | c in chats ensures IsAdmin(l.status, c) {
          assert Administered(Reached(l), l.status, c);
        }
      }
      Enumeration(chats, [], 1)
  }

  /** The flood signals change nothing but the waits: the answer is that of a run without them. */
  lemma {:induction false} FloodsDoNotChangeChats(l: Listing)
    ensures GetBotChats(l).chats == GetBotChats(l.(floods := [])).chats
    decreases |l.floods|
  {
    if l.ready && |l.floods| > 0 {
      FloodsDoNotChangeChats(l.(floods := l.floods[1..]));
    }
  }

  /** When the dialogs carry distinct ids, no administered chat is listed twice. */
  lemma GetBotChatsNoDup(l: Listing)
    requires DistinctIds(l.dialogs)
    ensures NoDup(GetBotChats(l).chats)
  {
    FloodsDoNotChangeChats(l);
    if l.ready {
      var ds := Reached(l);
      assert DistinctIds(ds) by {
        forall i, j | 0 <= i < j < |ds| && ToAiogramId(ds[i]).Some?
          ensures ToAiogramId(ds[i]) != ToAiogramId(ds[j])
        {
          assert ds[i] == l.dialogs[i] && ds[j] == l.dialogs[j];
        }
      }
      ScanNoDup(ds, l.status);
    }
  }
}

=== FILE: chunks.dfy ===
/**
 * The participant chunking of `make_announcement`: the mention list is cut
 * into consecutive slices of 50, as the comprehension
 * `[participants[i:i + 50] for i in range(0, len(participants), 50)]` does.
 */
module Chunks {
  const ChunkSize: nat := 50

  /** Consecutive slices of length `n`, the last one possibly shorter. */
  function Chunks<T>(s: seq<T>, n: nat): (r: seq<seq<T>>)
    requires n > 0
    ensures |s| == 0 <==> |r| == 0
    ensures forall i :: 0 <= i < |r| ==> 0 < |r[i]| <= n
    ensures forall i :: 0 <= i < |r| - 1 ==> |r[i]| == n
    decreases |s|
  {
    if |s| == 0 then []
    else if |s| <= n then [s]
    else [s[..n]] + Chunks(s[n..], n)
  }

  /** There are ceil(|s| / n) chunks: the fewest slices of at most `n` that hold everyone. */
  lemma {:induction false} ChunkCount<T>(s: seq<T>, n: nat)
    requires n > 0
    ensures (|Chunks(s, n)| - 1) * n < |s| <= |Chunks(s, n)| * n || |s| == |Chunks(s, n)| == 0
    decreases |s|
  {
    if |s| > n {
      var k := |Chunks(s[n..], n)|;
      ChunkCount(s[n..], n);
      assert |Chunks(s, n)| == k + 1;
      assert (k + 1) * n == k * n + n;
    }
  }

  /** Concatenation of a sequence of sequences. */
  function Flatten<T>(ss: seq<seq<T>>): seq<T>
  {
    if |ss| == 0 then [] else ss[0] + Flatten(ss[1..])
  }

  /** Chunking loses, duplicates and reorders no participant. */
  lemma {:induction false} FlattenChunks<T>(s: seq<T>, n: nat)
    requires n > 0
    ensures Flatten(Chunks(s, n)) == s
    decreases |s|
  {
    if |s| == 0 {
    } else if |s| <= n {
      assert Flatten([s]) == s + Flatten([]);
    } else {
      FlattenChunks(s[n..], n);
      var r := Chunks(s, n);
      assert r[1..] == Chunks(s[n..], n);
      assert s[..n] + s[n..] == s;
    }
  }

  /** The end of the chunk that starts at `lo`. */
  function ChunkEnd(lo: nat, n: nat, len: nat): nat
  {
    if lo + n <= len then lo + n else len
  }

  /** Chunk `i` holds exactly the participants at positions `i * n` up to `i * n + n`. */
  lemma {:induction false} ChunkContents<T>(s: seq<T>, n: nat, i: nat)
    requires n > 0 && i < |Chunks(s, n)|
    ensures i * n < |s|
    ensures Chunks(s, n)[i] == s[i * n .. ChunkEnd(i * n, n, |s|)]
    decreases |s|
  {
    if |s| <= n {
      assert Chunks(s, n) == [s];
      assert i == 0 && i * n == 0;
    } else if i == 0 {
      assert i * n == 0;
    } else {
      var rest := s[n..];
      var m := (i - 1) * n;
      assert i * n == m + n;
      assert Chunks(s, n)[i] == Chunks(rest, n)[i - 1];
      ChunkContents(rest, n, i - 1);
      assert ChunkEnd(m, n, |rest|) + n == ChunkEnd(m + n, n, |s|);
      assert rest[m .. ChunkEnd(m, n, |rest|)] == s[m + n .. ChunkEnd(m + n, n, |s|)];
    }
  }

  /** The first announcement carries the first 50 participants, or everyone when there are fewer. */
  lemma FirstChunk<T>(s: seq<T>)
    requires |s| > 0
    ensures Chunks(s, ChunkSize)[0] == if |s| <= ChunkSize then s else s[..ChunkSize]
  {
  }
}

=== FILE: filter.dfy ===
/**
 * `filter_messages`: when the chat's filter is on and the message has text,
 * the first forbidden word found in the lower-cased text causes one 24-hour
 * restriction of the sender and, once that succeeded, one "mute" row; the
 * loop then stops, whatever the outcome of the restriction.
 */
module Filter {
  import opened Types
  import opened Provider
  import opened World

  const FilterMuteMinutes: int := 24 * 60
  const FilterReasonPrefix: string := "Використання забороненого слова: "

  /**
   * `get_filter_status`: the stored flag, `True` when the chat has no
   * settings row, and `True` as well when the store cannot be read.
   */
  function FilterEnabled(settings: map<ChatId, bool>, dbUp: bool, chat: ChatId): (r: bool)
    ensures !r <==> dbUp && chat in settings && !settings[chat]
  {
    if !dbUp then true
    else if chat in settings then settings[chat]
    else true
  }

  /** Python's `word in text`: `word` is a contiguous slice of `text` (the empty word is in every text). */
  ghost predicate Occurs(word: string, text: string)
  {
    exists i :: OccursAt(word, text, i)
  }

  /** `word` sits in `text` starting at position `i`. */
  predicate OccursAt(word: string, text: string, i: int)
  {
    0 <= i <= |text| - |word| && text[i..i + |word|] == word
  }

  /** A left-to-right search for `word` in `text`. */
  function Contains(word: string, text: string): (r: bool)
    ensures r <==> Occurs(word, text)
    decreases |text|
  {
    if |word| <= |text| && text[..|word|] == word then
      assert OccursAt(word, text, 0);
      true
    else if |text| == 0 then
      false
    else
      var b := Contains(word, text[1..]);
      assert b ==> Occurs(word, text) by {
        if b {
          var i :| OccursAt(word, text[1..], i);
          assert text[i + 1..i + 1 + |word|] == text[1..][i..i + |word|];
          assert OccursAt(word, text, i + 1);
        }
      }
      assert Occurs(word, text) ==> b by {
        if Occurs(word, text) {
          var i :| OccursAt(word, text, i);
          assert i != 0;
          assert text[1..][i - 1..i - 1 + |word|] == text[i..i + |word|];
          assert OccursAt(word, text[1..], i - 1);
        }
      }
      b
  }

  /**
   * The position in `words` of the first word that occurs in `text`, as the
   * `for ... break` loop finds it. `FORBIDDEN_WORDS` is a Python set, so
   * `words` is that set's iteration order, which follows string hashing and
   * can differ from one run of the bot to the next, not the file order.
   */
  function FirstMatch(words: seq<string>, text: string): (r: Option<nat>)
    ensures r.Some? ==> r.value < |words| && Occurs(words[r.value], text)
    ensures r.Some? ==> forall j :: 0 <= j < r.value ==> !Occurs(words[j], text)
    ensures r.None? ==> forall j :: 0 <= j < |words| ==> !Occurs(words[j], text)
    decreases |words|
  {
    if |words| == 0 then None
    else if Contains(words[0], text) then Some(0)
    else
      match FirstMatch(words[1..], text)
      case None => None
      case Some(i) => Some(i + 1)
  }

  /** The row a successful filter mute writes: no moderator, 24 hours, and the word in the reason. */
  function FilterEntry(user: UserId, chat: ChatId, word: string): Entry
  {
    Entry(user, chat, Mute, FilterReasonPrefix + word, Some(FilterMuteMinutes), None)
  }

  /**
   * One incoming message. `text` is the message text already lower-cased;
   * a message without text is the empty string. Whether an exception
   * escapes is not reported: every write happens before the reply or the
   * error notice, and the loop ends there either way.
   */
  function FilterMessage(w: World, env: Env, settings: map<ChatId, bool>, words: seq<string>,
                         chat: ChatId, sender: UserId, text: string): (r: World)
    // at most one restriction, and only of the sender in this chat
    ensures r.calls == w.calls || r.calls == w.calls + [Call(RestrictOp, chat, sender, env.FaultOf(RestrictOp, chat))]
    ensures r.calls != w.calls <==>
      FilterEnabled(settings, env.dbUp, chat) && |text| > 0 && exists j :: 0 <= j < |words| && Occurs(words[j], text)
    // a row only after a successful restriction, naming the first matching word
    ensures r.log != w.log <==> r.calls != w.calls && (RestrictOp, chat) !in env.faults && env.dbUp
    ensures r.log != w.log ==>
      exists j :: 0 <= j < |words| && Occurs(words[j], text) && (forall k :: 0 <= k < j ==> !Occurs(words[k], text))
        && r.log == w.log + [FilterEntry(sender, chat, words[j])]
    ensures r.warnings == w.warnings && r.bans == w.bans
  {
    if !FilterEnabled(settings, env.dbUp, chat) || |text| == 0 then w
    else
      match FirstMatch(words, text)
      case None => w
      case Some(j) =>
        var f := env.FaultOf(RestrictOp, chat);
        var w1 := w.Record(RestrictOp, chat, sender, f);
        if f.None? then w1.Log(env.dbUp, FilterEntry(sender, chat, words[j]))
        else w1
  }
}

=== FILE: handlers.dfy ===
/**
 * The action handlers the worker dispatches to: `ban_user_action`,
 * `kick_user_action`, `warn_user_action`, `mute_user_action`,
 * `unban_user_action`, `unmute_user_action`, `unwarn_user_action` and the
 * read-only part of `info_user_action`. Reply texts, audio, sleeps and
 * message deletion are left out; what remains is what each handler writes
 * and which provider calls it makes.
 */
module Handlers {
  import opened Types
  import opened Provider
  import opened World
  import opened Tasks
  import opened Propagation
  import Ledger
  import BotChats

  /** `warn_user_action` escalates once `add_warning` returns at least this count. */
  const EscalationThreshold: int := 3
  const EscalationReason: string := "3 попередження"
  /** `task.duration_minutes or 60`. */
  const DefaultMuteMinutes: int := 60

  /** The notification in `chat` fails (any exception of `send_message`). */
  predicate SendFails(env: Env, chat: ChatId)
  {
    (SendOp, chat) in env.faults
  }

  /** The chats `get_bot_chats` reports for this run. */
  function AdminChats(env: Env): seq<ChatId>
  {
    BotChats.GetBotChats(env.listing).chats
  }

  /**
   * Ban or kick in the origin chat, then, only if that completed and its
   * notice went out, replay in every other administered chat. The notice is
   * sent inside the same `try` as the ban: if it fails, the handler leaves
   * through the error branch and propagation never starts.
   */
  function ModerateEverywhere(action: Action, w: World, env: Env, t: Task): (r: Step)
    ensures Extends(w.log, r.world.log) && Extends(w.calls, r.world.calls)
    ensures forall k :: k in w.bans ==> k in r.world.bans
    ensures action == KickAction ==> r.world.bans == w.bans
    ensures r.world.warnings == w.warnings
  {
    var s := ActIn(action, w, env, t, t.chat, t.reason);
    match s.status
    case Failed => Step(s.world, SendFails(env, t.chat))
    case Fatal => Step(s.world, true)
    case Done =>
      if SendFails(env, t.chat) then Step(s.world, true)
      else
        var p := Propagate(action, s.world, env, t, AdminChats(env));
        ExtendsTrans(w.log, s.world.log, p.world.log);
        ExtendsTrans(w.calls, s.world.calls, p.world.calls);
        p
  }

  /** Whatever happens later, the first calls and rows of a run are those of the origin chat. */
  lemma OriginComesFirst(action: Action, w: World, env: Env, t: Task)
    ensures var s := ActIn(action, w, env, t, t.chat, t.reason);
      var r := ModerateEverywhere(action, w, env, t);
      Extends(s.world.log, r.world.log) && Extends(s.world.calls, r.world.calls)
      && (s.status != Done || SendFails(env, t.chat) ==> r.world == s.world)
  {
  }

  /** `ban_user_action`. */
  function BanUser(w: World, env: Env, t: Task): (r: Step)
    ensures Extends(w.log, r.world.log) && Extends(w.calls, r.world.calls)
    ensures forall k :: k in w.bans ==> k in r.world.bans
    ensures r.world.warnings == w.warnings
  {
    ModerateEverywhere(BanAction, w, env, t)
  }

  /** `kick_user_action`: ban then unban, in the origin and in every other administered chat where the user is. */
  function KickUser(w: World, env: Env, t: Task): (r: Step)
    ensures r.world.bans == w.bans && r.world.warnings == w.warnings
    ensures Extends(w.log, r.world.log) && Extends(w.calls, r.world.calls)
  {
    ModerateEverywhere(KickAction, w, env, t)
  }

  /** A failed origin ban makes its one call and stops: no ban row, no log row, no propagation. */
  lemma BanOriginFailure(w: World, env: Env, t: Task)
    requires (BanOp, t.chat) in env.faults
    ensures BanUser(w, env, t).world == w.Record(BanOp, t.chat, t.user, env.FaultOf(BanOp, t.chat))
  {
  }

  /** A completed origin ban writes the origin ban row and, first in the log, the origin "ban" row. */
  lemma BanOriginSuccess(w: World, env: Env, t: Task)
    requires (BanOp, t.chat) !in env.faults && env.dbUp
    ensures var r := BanUser(w, env, t).world;
      |r.log| > |w.log| && r.log[|w.log|] == Entry(t.user, t.chat, Ban, t.reason, None, Some(t.moderator))
      && (t.user, t.chat) in r.bans && r.bans[(t.user, t.chat)] == t.reason
  {
    var s := ActIn(BanAction, w, env, t, t.chat, t.reason);
    var r := BanUser(w, env, t).world;
    OriginComesFirst(BanAction, w, env, t);
    assert s.world.log[|w.log|] == Entry(t.user, t.chat, Ban, t.reason, None, Some(t.moderator));
    assert r.log[..|s.world.log|] == s.world.log;
    assert r.log[|w.log|] == s.world.log[|w.log|];
    if s.status == Done && !SendFails(env, t.chat) {
      PropagateKeepsOriginRow(s.world, env, t, AdminChats(env));
    }
  }

  /** Propagation skips the origin chat, so it never overwrites the origin's ban row. */
  lemma {:induction false} PropagateKeepsOriginRow(w: World, env: Env, t: Task, chats: seq<ChatId>)
    requires (t.user, t.chat) in w.bans
    ensures var r := Propagate(BanAction, w, env, t, chats).world;
      (t.user, t.chat) in r.bans && r.bans[(t.user, t.chat)] == w.bans[(t.user, t.chat)]
    decreases |chats|
  {
    if |chats| > 0 {
      var c := chats[0];
      if c != t.chat && (c, t.user) in env.present {
        var s := ActIn(BanAction, w, env, t, c, ElsewhereReason(BanAction, t.reason));
        PropagateKeepsOriginRow(s.world, env, t, chats[1..]);
      } else {
        PropagateKeepsOriginRow(w, env, t, chats[1..]);
      }
    }
  }

  /**
   * Either action, completing in the origin with only bad requests
   * anywhere: after the origin calls, every administered chat other than
   * the origin where the user is present gets its calls, in list order, and
   * each completed one its own log row.
   */
  lemma OriginThenPropagate(action: Action, w: World, env: Env, t: Task)
    requires env.OnlyBadRequests() && SucceedsIn(env, action, t.chat) && !SendFails(env, t.chat)
    ensures var r := ModerateEverywhere(action, w, env, t);
      var targets := Eligible(AdminChats(env), t.chat, t.user, env.present);
      && !r.raised
      && r.world.calls == w.calls + CallsIn(env, action, t.chat, t.user) + CallsFor(env, action, targets, t.user)
      && r.world.log == w.log
           + (if env.dbUp then [EntryFor(action, t, t.chat, t.reason)] + EntriesFor(env, action, t, targets) else [])
  {
    OriginThenPropagateCalls(action, w, env, t);
    OriginThenPropagateLog(action, w, env, t);
  }

  lemma OriginThenPropagateCalls(action: Action, w: World, env: Env, t: Task)
    requires env.OnlyBadRequests() && SucceedsIn(env, action, t.chat) && !SendFails(env, t.chat)
    ensures var r := ModerateEverywhere(action, w, env, t);
      && !r.raised
      && r.world.calls == w.calls + CallsIn(env, action, t.chat, t.user)
           + CallsFor(env, action, Eligible(AdminChats(env), t.chat, t.user, env.present), t.user)
  {
    var s := ActIn(action, w, env, t, t.chat, t.reason);
    var chats := AdminChats(env);
    OriginCompletes(action, w, env, t);
    PropagateCompletes(action, s.world, env, t, chats);
    PropagateCalls(action, s.world, env, t, chats);
  }

  lemma OriginThenPropagateLog(action: Action, w: World, env: Env, t: Task)
    requires env.OnlyBadRequests() && SucceedsIn(env, action, t.chat) && !SendFails(env, t.chat)
    ensures ModerateEverywhere(action, w, env, t).world.log == w.log
      + (if env.dbUp then [EntryFor(action, t, t.chat, t.reason)]
           + EntriesFor(env, action, t, Eligible(AdminChats(env), t.chat, t.user, env.present)) else [])
  {
    var s := ActIn(action, w, env, t, t.chat, t.reason);
    var chats := AdminChats(env);
    var targets := Eligible(chats, t.chat, t.user, env.present);
    OriginCompletes(action, w, env, t);
    PropagateLog(action, s.world, env, t, chats);
    var r := ModerateEverywhere(action, w, env, t).world.log;
    if env.dbUp {
      assert r == s.world.log + EntriesFor(env, action, t, targets);
      assert s.world.log == w.log + [EntryFor(action, t, t.chat, t.reason)];
      assert r == w.log + ([EntryFor(action, t, t.chat, t.reason)] + EntriesFor(env, action, t, targets));
    } else {
      assert r == s.world.log + [];
      assert s.world.log == w.log;
    }
  }

  /** A completed origin step with its notice sent hands over to propagation. */
  lemma OriginCompletes(action: Action, w: World, env: Env, t: Task)
    requires SucceedsIn(env, action, t.chat) && !SendFails(env, t.chat)
    ensures var s := ActIn(action, w, env, t, t.chat, t.reason);
      && ModerateEverywhere(action, w, env, t) == Propagate(action, s.world, env, t, AdminChats(env))
      && s.world.calls == w.calls + CallsIn(env, action, t.chat, t.user)
      && s.world.log == w.log + (if env.dbUp then [EntryFor(action, t, t.chat, t.reason)] else [])
  {
    var s := ActIn(action, w, env, t, t.chat, t.reason);
    assert s.status == Done;
  }

  /** A ban that completes in the origin: one origin call, then one ban call per eligible chat. */
  lemma BanPropagates(w: World, env: Env, t: Task)
    requires env.OnlyBadRequests() && (BanOp, t.chat) !in env.faults && !SendFails(env, t.chat)
    ensures var r := BanUser(w, env, t);
      var targets := Eligible(AdminChats(env), t.chat, t.user, env.present);
      && !r.raised
      && r.world.calls == w.calls + [Call(BanOp, t.chat, t.user, None)] + CallsFor(env, BanAction, targets, t.user)
      && r.world.log == w.log
           + (if env.dbUp then [Entry(t.user, t.chat, Ban, t.reason, None, Some(t.moderator))]
                + EntriesFor(env, BanAction, t, targets) else [])
  {
    assert CallsIn(env, BanAction, t.chat, t.user) == [Call(BanOp, t.chat, t.user, None)];
    OriginThenPropagate(BanAction, w, env, t);
  }

  /** The same for a kick whose origin ban and unban complete. */
  lemma KickPropagates(w: World, env: Env, t: Task)
    requires env.OnlyBadRequests() && SucceedsIn(env, KickAction, t.chat) && !SendFails(env, t.chat)
    ensures var r := KickUser(w, env, t);
      var targets := Eligible(AdminChats(env), t.chat, t.user, env.present);
      && !r.raised
      && r.world.calls == w.calls + [Call(BanOp, t.chat, t.user, None), Call(UnbanOp, t.chat, t.user, None)]
           + CallsFor(env, KickAction, targets, t.user)
      && r.world.log == w.log
           + (if env.dbUp then [Entry(t.user, t.chat, Kick, t.reason, None, Some(t.moderator))]
                + EntriesFor(env, KickAction, t, targets) else [])
  {
    assert CallsIn(env, KickAction, t.chat, t.user) == [Call(BanOp, t.chat, t.user, None), Call(UnbanOp, t.chat, t.user, None)];
    OriginThenPropagate(KickAction, w, env, t);
  }

  /** An origin kick that does not complete stops the handler: no row, no propagation. */
  lemma KickOriginFailure(w: World, env: Env, t: Task)
    requires !SucceedsIn(env, KickAction, t.chat)
    ensures KickUser(w, env, t).world.log == w.log
    ensures KickUser(w, env, t).world.calls == w.calls + CallsIn(env, KickAction, t.chat, t.user)
  {
  }

  /**
   * With only bad requests and distinct dialogs, a completed ban makes
   * exactly one ban call in each administered chat other than the origin
   * where the user is present, and none in any other chat. Distinct ids
   * hold for any listing of distinct valid dialogs, as
   * `BotChats.ValidDialogsHaveDistinctIds` shows; `BanCallsPerDialogChat`
   * states the result under that condition.
   */
  lemma BanCallsPerChat(w: World, env: Env, t: Task, c: ChatId)
    requires env.OnlyBadRequests() && (BanOp, t.chat) !in env.faults && !SendFails(env, t.chat)
    requires BotChats.DistinctIds(env.listing.dialogs)
    requires c != t.chat
    ensures var delta := BanUser(w, env, t).world.calls[|w.calls| + 1..];
      BanCallsIn(delta, c) == if c in AdminChats(env) && (c, t.user) in env.present then 1 else 0
  {
    BanPropagates(w, env, t);
    var chats := AdminChats(env);
    var targets := Eligible(chats, t.chat, t.user, env.present);
    var r := BanUser(w, env, t).world;
    assert r.calls[|w.calls| + 1..] == CallsFor(env, BanAction, targets, t.user);
    OneBanCallPerChat(env, BanAction, targets, t.user, c);
    EligibleCount(chats, t.chat, t.user, env.present, c);
    BotChats.GetBotChatsNoDup(env.listing);
    CountNoDup(chats, c);
  }

  /** The same count for a listing of distinct valid dialogs, as `iter_dialogs` yields them. */
  lemma BanCallsPerDialogChat(w: World, env: Env, t: Task, c: ChatId)
    requires env.OnlyBadRequests() && (BanOp, t.chat) !in env.faults && !SendFails(env, t.chat)
    requires NoDup(env.listing.dialogs)
    requires forall i :: 0 <= i < |env.listing.dialogs| ==> BotChats.ValidDialog(env.listing.dialogs[i])
    requires c != t.chat
    ensures var delta := BanUser(w, env, t).world.calls[|w.calls| + 1..];
      BanCallsIn(delta, c) == if c in AdminChats(env) && (c, t.user) in env.present then 1 else 0
  {
    BotChats.ValidDialogsHaveDistinctIds(env.listing.dialogs);
    BanCallsPerChat(w, env, t, c);
  }

  /** The rows one `warn_user_action` appends: the warning, and the escalation kick when it applied. */
  function WarnRows(w: World, env: Env, t: Task): seq<Entry>
  {
    var count := Ledger.AddWarning(w.warnings, (t.user, t.chat), env.dbUp).count;
    if !env.dbUp then []
    else
      var kick := if count >= EscalationThreshold && (BanOp, t.chat) !in env.faults
        then [Entry(t.user, t.chat, Kick, EscalationReason, None, Some(t.moderator))] else [];
      [Entry(t.user, t.chat, Warn, t.reason, None, Some(t.moderator))] + kick
  }

  /**
   * `warn_user_action`: count the warning, log it, and once `add_warning`
   * returns 3 or more, ban in the origin chat only. The escalation logs a
   * "kick" although it never unbans, writes no ban row, and does not
   * propagate.
   */
  function WarnUser(w: World, env: Env, t: Task): (r: Step)
    ensures env.dbUp ==> Ledger.Stored(r.world.warnings, (t.user, t.chat)) == Ledger.Stored(w.warnings, (t.user, t.chat)) + 1
    ensures forall k :: k != (t.user, t.chat) ==> Ledger.Stored(r.world.warnings, k) == Ledger.Stored(w.warnings, k)
    ensures !env.dbUp ==> r.world.warnings == w.warnings && r.world.log == w.log
    // exactly one ban call, in the origin chat, iff the returned count reached the threshold
    ensures env.dbUp && Ledger.Stored(w.warnings, (t.user, t.chat)) + 1 >= EscalationThreshold ==>
      r.world.calls == w.calls + [Call(BanOp, t.chat, t.user, env.FaultOf(BanOp, t.chat))]
    ensures !(env.dbUp && Ledger.Stored(w.warnings, (t.user, t.chat)) + 1 >= EscalationThreshold) ==>
      r.world.calls == w.calls
    ensures r.world.log == w.log + WarnRows(w, env, t)
    ensures env.dbUp ==> r.world.log[|w.log|].kind == Warn
    ensures r.world.bans == w.bans
  {
    var k := (t.user, t.chat);
    var up := Ledger.AddWarning(w.warnings, k, env.dbUp);
    var w1 := w.(warnings := up.ledger).Log(env.dbUp, Entry(t.user, t.chat, Warn, t.reason, None, Some(t.moderator)));
    if up.count >= EscalationThreshold then
      var f := env.FaultOf(BanOp, t.chat);
      var w2 := w1.Record(BanOp, t.chat, t.user, f);
      if f.None? then
        Step(w2.Log(env.dbUp, Entry(t.user, t.chat, Kick, EscalationReason, None, Some(t.moderator))), SendFails(env, t.chat))
      else Step(w2, f.value == OtherError || SendFails(env, t.chat))
    else Step(w1, SendFails(env, t.chat))
  }

  /** The duration a mute uses: Python's `task.duration_minutes or 60`, so a missing or zero duration becomes 60. */
  function MuteMinutes(d: Option<int>): (r: int)
    ensures r != 0
    ensures d.None? || d.value == 0 ==> r == DefaultMuteMinutes
    ensures d.Some? && d.value != 0 ==> r == d.value
  {
    match d
    case None => DefaultMuteMinutes
    case Some(m) => if m == 0 then DefaultMuteMinutes else m
  }

  /** `mute_user_action`: restrict in the origin chat; only a successful restriction is logged, with its duration. */
  function MuteUser(w: World, env: Env, t: Task): (r: Step)
    ensures r.world.calls == w.calls + [Call(RestrictOp, t.chat, t.user, env.FaultOf(RestrictOp, t.chat))]
    ensures (RestrictOp, t.chat) in env.faults || !env.dbUp ==> r.world.log == w.log
    ensures (RestrictOp, t.chat) !in env.faults && env.dbUp ==>
      r.world.log == w.log + [Entry(t.user, t.chat, Mute, t.reason, Some(MuteMinutes(t.duration)), Some(t.moderator))]
    ensures t.duration.None? && (RestrictOp, t.chat) !in env.faults && env.dbUp ==>
      r.world.log[|w.log|].duration == Some(60)
    ensures r.world.bans == w.bans && r.world.warnings == w.warnings
  {
    var f := env.FaultOf(RestrictOp, t.chat);
    var w1 := w.Record(RestrictOp, t.chat, t.user, f);
    if f.None? then
      Step(w1.Log(env.dbUp, Entry(t.user, t.chat, Mute, t.reason, Some(MuteMinutes(t.duration)), Some(t.moderator))), SendFails(env, t.chat))
    else Step(w1, f.value == OtherError || SendFails(env, t.chat))
  }

  /** `unban_user_action`: unban in the origin chat only; the ban row goes only after the provider call succeeded. */
  function UnbanUser(w: World, env: Env, t: Task): (r: Step)
    ensures r.world.calls == w.calls + [Call(UnbanOp, t.chat, t.user, env.FaultOf(UnbanOp, t.chat))]
    ensures (UnbanOp, t.chat) !in env.faults && env.dbUp ==> (t.user, t.chat) !in r.world.bans
    ensures (UnbanOp, t.chat) in env.faults || !env.dbUp ==> r.world.bans == w.bans
    ensures (UnbanOp, t.chat) !in env.faults && env.dbUp ==> r.world.bans == w.bans - {(t.user, t.chat)}
    // rows in other chats, including those a propagated ban wrote, stay
    ensures forall k :: k in w.bans && k != (t.user, t.chat) ==> k in r.world.bans && r.world.bans[k] == w.bans[k]
    ensures r.world.log == w.log && r.world.warnings == w.warnings
  {
    var f := env.FaultOf(UnbanOp, t.chat);
    var w1 := w.Record(UnbanOp, t.chat, t.user, f);
    if f.None? then Step(w1.RemoveBan(env.dbUp, (t.user, t.chat)), SendFails(env, t.chat))
    else Step(w1, f.value == OtherError || SendFails(env, t.chat))
  }

  /**
   * `unmute_user_action`: lift the restriction, send the notice, and only
   * then delete the user's mute rows of that chat from the punishments
   * table; a failed notice leaves the rows in place.
   */
  function UnmuteUser(w: World, env: Env, t: Task): (r: Step)
    ensures r.world.calls == w.calls + [Call(RestrictOp, t.chat, t.user, env.FaultOf(RestrictOp, t.chat))]
    ensures (RestrictOp, t.chat) in env.faults || SendFails(env, t.chat) || !env.dbUp ==> r.world.log == w.log
    ensures (RestrictOp, t.chat) !in env.faults && !SendFails(env, t.chat) && env.dbUp ==>
      forall e :: e in r.world.log ==> !IsMuteOf(e, t.user, t.chat)
    ensures forall e :: !IsMuteOf(e, t.user, t.chat) ==> Count(r.world.log, e) == Count(w.log, e)
    ensures r.world.bans == w.bans && r.world.warnings == w.warnings
  {
    var f := env.FaultOf(RestrictOp, t.chat);
    var w1 := w.Record(RestrictOp, t.chat, t.user, f);
    if f.Some? then Step(w1, f.value == OtherError || SendFails(env, t.chat))
    else if SendFails(env, t.chat) then Step(w1, true)
    else Step(w1.RemoveMute(env.dbUp, t.user, t.chat), false)
  }

  /** The two replies `unwarn_user_action` can send. */
  datatype UnwarnNotice = Remaining(count: int) | NoWarnings

  /** The reply chosen by `if warn_count >= 0`. */
  function NoticeFor(count: int): UnwarnNotice
  {
    if count >= 0 then Remaining(count) else NoWarnings
  }

  /** `unwarn_user_action`: decrement the counter and report what is left. */
  function UnwarnUser(w: World, env: Env, t: Task): (r: (Step, UnwarnNotice))
    ensures r.0.world.warnings == Ledger.RemoveWarning(w.warnings, (t.user, t.chat), env.dbUp).ledger
    // the "no warnings" reply is unreachable: `remove_warning` never returns a negative count
    ensures r.1.Remaining? && r.1.count >= 0
    // the reply always carries what `remove_warning` returned, 0 for no row or a store error
    ensures r.1 == Remaining(Ledger.RemoveWarning(w.warnings, (t.user, t.chat), env.dbUp).count)
    ensures !env.dbUp || Ledger.Stored(w.warnings, (t.user, t.chat)) <= 0 ==> r.1 == Remaining(0)
    ensures env.dbUp && Ledger.Stored(w.warnings, (t.user, t.chat)) > 0 ==>
      r.1.count == Ledger.Stored(w.warnings, (t.user, t.chat)) - 1
    ensures r.0.world.log == w.log && r.0.world.bans == w.bans && r.0.world.calls == w.calls
  {
    var up := Ledger.RemoveWarning(w.warnings, (t.user, t.chat), env.dbUp);
    (Step(w.(warnings := up.ledger), SendFails(env, t.chat)), NoticeFor(up.count))
  }

  /** `/unwarn` right after `/warn` gives the ledger back exactly as it was, whatever the escalation did. */
  lemma WarnThenUnwarn(w: World, env: Env, t: Task)
    requires Ledger.Valid(w.warnings) && env.dbUp
    ensures UnwarnUser(WarnUser(w, env, t).world, env, t).0.world.warnings == w.warnings
  {
    Ledger.AddThenRemove(w.warnings, (t.user, t.chat));
  }

  /**
   * `/unban` after a ban that propagated lifts only the origin row: the rows
   * the propagation wrote in the other chats stay, and so does the user's
   * log.
   */
  lemma UnbanKeepsPropagatedRows(w: World, env: Env, t: Task, u: Task, c: ChatId)
    requires u.user == t.user && u.chat == t.chat && c != t.chat
    requires (UnbanOp, t.chat) !in env.faults && env.dbUp
    ensures var banned := BanUser(w, env, t).world;
      var after := UnbanUser(banned, env, u).world;
      && (t.user, t.chat) !in after.bans
      && ((t.user, c) in banned.bans ==> (t.user, c) in after.bans && after.bans[(t.user, c)] == banned.bans[(t.user, c)])
      && after.log == banned.log
  {
  }

  /** A mute followed by a successful unmute leaves no mute row of that user in that chat. */
  lemma MuteThenUnmute(w: World, env: Env, t: Task, u: Task)
    requires u.user == t.user && u.chat == t.chat
    requires (RestrictOp, t.chat) !in env.faults && !SendFails(env, t.chat) && env.dbUp
    ensures var muted := MuteUser(w, env, t).world;
      && muted.log[|w.log|].kind == Mute
      && forall e :: e in UnmuteUser(muted, env, u).world.log ==> !IsMuteOf(e, t.user, t.chat)
  {
  }

  /** The other chats `info_user_action` lists: in list order, skipping the origin and chats without the user. */
  function InfoMemberships(chats: seq<ChatId>, origin: ChatId, user: UserId, present: set<(ChatId, UserId)>): seq<ChatId>
    decreases |chats|
  {
    if |chats| == 0 then []
    else if chats[0] == origin then InfoMemberships(chats[1..], origin, user, present)
    else if (chats[0], user) in present then [chats[0]] + InfoMemberships(chats[1..], origin, user, present)
    else InfoMemberships(chats[1..], origin, user, present)
  }

  /** The chats `/info` reports as memberships are exactly those a ban of the same user would propagate to. */
  lemma {:induction false} InfoMatchesPropagation(chats: seq<ChatId>, origin: ChatId, user: UserId, present: set<(ChatId, UserId)>)
    ensures InfoMemberships(chats, origin, user, present) == Eligible(chats, origin, user, present)
    decreases |chats|
  {
    if |chats| > 0 {
      InfoMatchesPropagation(chats[1..], origin, user, present);
    }
  }
}

=== FILE: ledger.dfy ===
/**
 * The warnings table: a counter per (user, chat) with the upsert, guarded
 * decrement and read of `add_warning`, `remove_warning` and
 * `get_warning_count`. A store that cannot be reached is the `dbUp == false`
 * case; every one of these operations then answers 0 and changes nothing.
 */
module Ledger {
  import opened Types

  type Warnings = map<Key, int>

  /** Rows are created with count 1 and deleted when they reach 0, so every stored count is positive. */
  ghost predicate Valid(w: Warnings)
  {
    forall k :: k in w ==> w[k] >= 1
  }

  /** The stored count of a key, 0 when there is no row: the `SELECT warn_count` of a reachable store. */
  function Stored(w: Warnings, k: Key): int
  {
    if k in w then w[k] else 0
  }

  /** The new table together with the count the SQL statement returned. */
  datatype Update = Update(ledger: Warnings, count: int)

  /** `add_warning`: insert with count 1 or increment, returning the new count; 0 on a store error. */
  function AddWarning(w: Warnings, k: Key, dbUp: bool): (r: Update)
    ensures dbUp ==> r.count == Stored(w, k) + 1 && Stored(r.ledger, k) == r.count
    ensures dbUp && k !in w ==> r.count == 1
    ensures dbUp ==> r.ledger.Keys == w.Keys + {k}
    ensures forall k' :: k' != k ==> Stored(r.ledger, k') == Stored(w, k')
    ensures !dbUp ==> r.count == 0 && r.ledger == w
    ensures Valid(w) ==> Valid(r.ledger) && (dbUp ==> r.count >= 1)
  {
    if !dbUp then Update(w, 0)
    else if k in w then Update(w[k := w[k] + 1], w[k] + 1)
    else Update(w[k := 1], 1)
  }

  /**
   * `remove_warning`: the UPDATE only touches a row whose count is positive;
   * a row that reaches 0 is deleted. Returns the new count, or 0 when no row
   * was updated or the store failed.
   */
  function RemoveWarning(w: Warnings, k: Key, dbUp: bool): (r: Update)
    ensures r.count >= 0
    ensures dbUp && Stored(w, k) > 0 ==> r.count == Stored(w, k) - 1 && Stored(r.ledger, k) == r.count
    ensures dbUp && Stored(w, k) == 1 ==> k !in r.ledger
    ensures Stored(w, k) <= 0 || !dbUp ==> r.count == 0 && r.ledger == w
    ensures forall k' :: k' != k ==> Stored(r.ledger, k') == Stored(w, k')
    ensures r.ledger.Keys <= w.Keys
    ensures Valid(w) ==> Valid(r.ledger)
  {
    if !dbUp then Update(w, 0)
    else if k in w && w[k] > 0 then
      var c := w[k] - 1;
      if c == 0 then Update(w - {k}, 0) else Update(w[k := c], c)
    else Update(w, 0)
  }

  /** `get_warning_count`: the stored count, 0 for a missing row or a store error. */
  function WarningCount(w: Warnings, k: Key, dbUp: bool): (r: int)
    ensures dbUp ==> r == Stored(w, k)
    ensures !dbUp ==> r == 0
    ensures Valid(w) ==> r >= 0
    ensures r > 0 ==> k in w
  {
    if dbUp && k in w then w[k] else 0
  }

  /** `get_warning_count` reads back what `add_warning` and `remove_warning` just answered. */
  lemma CountReadsBack(w: Warnings, k: Key)
    requires Valid(w)
    ensures WarningCount(AddWarning(w, k, true).ledger, k, true) == AddWarning(w, k, true).count
    ensures WarningCount(RemoveWarning(w, k, true).ledger, k, true) == RemoveWarning(w, k, true).count
  {
  }

  /** Removing a warning undoes adding one: the table comes back exactly as it was. */
  lemma AddThenRemove(w: Warnings, k: Key)
    requires Valid(w)
    ensures RemoveWarning(AddWarning(w, k, true).ledger, k, true).ledger == w
  {
    var a := AddWarning(w, k, true).ledger;
    var b := RemoveWarning(a, k, true).ledger;
    if k in w {
      assert b == w[k := w[k]];
    } else {
      assert b == a - {k};
    }
  }

  /**
   * The return value of `remove_warning` does not tell a user who had no
   * warning from one whose last warning was just removed: both answer 0, and
   * afterwards both have no row.
   */
  lemma RemoveAmbiguity(w: Warnings, k1: Key, k2: Key)
    requires k1 !in w && k2 in w && w[k2] == 1
    ensures RemoveWarning(w, k1, true).count == RemoveWarning(w, k2, true).count == 0
    ensures WarningCount(RemoveWarning(w, k1, true).ledger, k1, true) == 0
    ensures WarningCount(RemoveWarning(w, k2, true).ledger, k2, true) == 0
  {
  }

  /** `n` successive warnings of one key, each answering the count it returned. */
  function WarnTimes(w: Warnings, k: Key, n: nat): (r: Update)
    decreases n
  {
    if n == 0 then Update(w, Stored(w, k))
    else AddWarning(WarnTimes(w, k, n - 1).ledger, k, true)
  }

  /** The counter is not capped at 3: after `n` warnings from no row, the count is `n`. */
  lemma {:induction false} CountIsUnbounded(w: Warnings, k: Key, n: nat)
    requires k !in w
    ensures WarnTimes(w, k, n).count == n
    ensures Stored(WarnTimes(w, k, n).ledger, k) == n
    decreases n
  {
    if n > 0 {
      CountIsUnbounded(w, k, n - 1);
    }
  }
}

=== FILE: markdown.dfy ===
/**
 * `escape_markdown_v2`: for each of the 17 MarkdownV2 special characters in
 * turn, `text.replace(c, '\\' + c)`. Since the backslash is not itself in the
 * list, the seventeen passes never re-escape each other's output; the model
 * proves the loop equal to a one-pass escape and that the escape is undone by
 * dropping the inserted backslashes.
 */
module Markdown {
  import opened Types

  const Backslash: char := '\\'

  /** The characters `escape_markdown_v2` escapes, in the order it replaces them. */
  const Specials: seq<char> := ['_', '*', '[', ']', '(', ')', '~', '`', '#', '+', '-', '=', '|', '{', '}', '.', '!']

  /** How many characters of `s` belong to `d`. */
  function CountIn(s: string, d: seq<char>): nat
  {
    if |s| == 0 then 0 else (if s[0] in d then 1 else 0) + CountIn(s[1..], d)
  }

  /** `s.replace(c, '\\' + c)`. */
  function Replace(s: string, c: char): (r: string)
    ensures |r| == |s| + Count(s, c)
    decreases |s|
  {
    if |s| == 0 then ""
    else (if s[0] == c then [Backslash, c] else [s[0]]) + Replace(s[1..], c)
  }

  /** The reference escape: one pass, a backslash before every character of `d`. */
  function EscapeAll(s: string, d: seq<char>): (r: string)
    decreases |s|
  {
    if |s| == 0 then ""
    else (if s[0] in d then [Backslash, s[0]] else [s[0]]) + EscapeAll(s[1..], d)
  }

  /** Drop the backslash in front of every character of `d`. */
  function Unescape(t: string, d: seq<char>): string
    decreases |t|
  {
    if |t| >= 2 && t[0] == Backslash && t[1] in d then [t[1]] + Unescape(t[2..], d)
    else if |t| >= 1 then [t[0]] + Unescape(t[1..], d)
    else ""
  }

  lemma {:induction false} ReplaceAppend(a: string, b: string, c: char)
    ensures Replace(a + b, c) == Replace(a, c) + Replace(b, c)
    decreases |a|
  {
    if |a| > 0 {
      assert (a + b)[1..] == a[1..] + b;
      ReplaceAppend(a[1..], b, c);
    } else {
      assert a + b == b;
    }
  }

  lemma {:induction false} EscapeNothing(s: string)
    ensures EscapeAll(s, []) == s
    decreases |s|
  {
    if |s| > 0 {
      EscapeNothing(s[1..]);
      assert s == [s[0]] + s[1..];
    }
  }

  /** The escape of one character under `d`. */
  function Piece(x: char, d: seq<char>): string
  {
    if x in d then [Backslash, x] else [x]
  }

  /** One more `replace` pass on the escape of a single character. */
  lemma ReplacePiece(x: char, d: seq<char>, c: char)
    requires c !in d && c != Backslash
    ensures Replace(Piece(x, d), c) == Piece(x, d + [c])
  {
    if x in d {
      assert Piece(x, d)[1..] == [x] && [x][1..] == [];
    } else {
      assert Piece(x, d)[1..] == [];
    }
  }

  /** One more `replace` pass adds exactly one more escaped character. */
  lemma {:induction false} ReplaceStep(s: string, d: seq<char>, c: char)
    requires c !in d && c != Backslash
    ensures Replace(EscapeAll(s, d), c) == EscapeAll(s, d + [c])
    decreases |s|
  {
    if |s| > 0 {
      var rest := EscapeAll(s[1..], d);
      assert EscapeAll(s, d) == Piece(s[0], d) + rest;
      ReplaceAppend(Piece(s[0], d), rest, c);
      ReplacePiece(s[0], d, c);
      ReplaceStep(s[1..], d, c);
      assert EscapeAll(s, d + [c]) == Piece(s[0], d + [c]) + EscapeAll(s[1..], d + [c]);
    }
  }

  /** The escaped text is one character longer per special character. */
  lemma {:induction false} EscapeLength(s: string, d: seq<char>)
    ensures |EscapeAll(s, d)| == |s| + CountIn(s, d)
    decreases |s|
  {
    if |s| > 0 {
      EscapeLength(s[1..], d);
    }
  }

  /** A non-empty escape never starts with a character of `d`. */
  lemma EscapeHead(s: string, d: seq<char>)
    requires Backslash !in d && |s| > 0
    ensures EscapeAll(s, d)[0] !in d
  {
  }

  /** Removing the inserted backslashes gives back the original text, characters and order unchanged. */
  lemma {:induction false} UnescapeEscape(s: string, d: seq<char>)
    requires Backslash !in d
    ensures Unescape(EscapeAll(s, d), d) == s
    decreases |s|
  {
    if |s| > 0 {
      var t := EscapeAll(s, d);
      UnescapeEscape(s[1..], d);
      if s[0] in d {
        assert t[2..] == EscapeAll(s[1..], d);
      } else {
        assert t[1..] == EscapeAll(s[1..], d);
        if |t| >= 2 {
          EscapeHead(s[1..], d);
          assert t[1] == EscapeAll(s[1..], d)[0];
        }
      }
      assert s == [s[0]] + s[1..];
    }
  }

  /** Every character of `d` in the output stands right after a backslash. */
  lemma {:induction false} EscapedArePreceded(s: string, d: seq<char>)
    requires Backslash !in d
    ensures forall i :: 0 <= i < |EscapeAll(s, d)| && EscapeAll(s, d)[i] in d ==>
      i > 0 && EscapeAll(s, d)[i - 1] == Backslash
    decreases |s|
  {
    if |s| > 0 {
      var t := EscapeAll(s, d);
      var head: string := if s[0] in d then [Backslash, s[0]] else [s[0]];
      var rest := EscapeAll(s[1..], d);
      EscapedArePreceded(s[1..], d);
      assert t == head + rest;
      forall i | 0 <= i < |t| && t[i] in d ensures i > 0 && t[i - 1] == Backslash {
        if i >= |head| {
          assert t[i] == rest[i - |head|];
          if i - |head| > 0 {
            assert t[i - 1] == rest[i - |head| - 1];
          }
        }
      }
    }
  }

  /** The special characters are pairwise distinct and none of them is the backslash. */
  lemma FreshSpecial(i: nat)
    requires i < |Specials|
    ensures Specials[i] !in Specials[..i] && Specials[i] != Backslash
  {
  }

  /**
   * `escape_markdown_v2`: the seventeen sequential `replace` passes. The
   * result is the one-pass escape, with every special character right after
   * a backslash; `EscapeLength` gives its length and `UnescapeEscape` shows
   * that nothing else changed.
   */
  method EscapeMarkdownV2(text: string) returns (r: string)
    ensures r == EscapeAll(text, Specials)
    ensures forall i :: 0 <= i < |r| && r[i] in Specials ==> i > 0 && r[i - 1] == Backslash
  {
    r := text;
    EscapeNothing(text);
    assert Specials[..0] == [];
    var i := 0;
    while i < |Specials|
      invariant 0 <= i <= |Specials|
      invariant r == EscapeAll(text, Specials[..i])
      decreases |Specials| - i
    {
      FreshSpecial(i);
      ReplaceStep(text, Specials[..i], Specials[i]);
      assert Specials[..i + 1] == Specials[..i] + [Specials[i]];
      r := Replace(r, Specials[i]);
      i := i + 1;
    }
    assert Specials[..|Specials|] == Specials;
    EscapedArePreceded(text, Specials);
  }
}

=== FILE: propagation.dfy ===
/**
 * The ban/kick step performed in one chat, and its replay over the chats the
 * bot administers (the loops at the end of `ban_user_action` and
 * `kick_user_action`). Each chat is tried on its own: a `TelegramBadRequest`
 * skips that chat and nothing already done is undone. Any other exception
 * escapes the handler and ends the loop where it is.
 */
module Propagation {
  import opened Types
  import opened Provider
  import opened World
  import opened Tasks

  datatype Action = BanAction | KickAction

  /** How the attempt in one chat ended: completed, skipped after a bad request, or aborted by another exception. */
  datatype ChatStatus = Done | Failed | Fatal

  datatype ChatStep = ChatStep(world: World, status: ChatStatus)

  /** The state after a handler, and whether an exception escaped it to the worker. */
  datatype Step = Step(world: World, raised: bool)

  const BanElsewherePrefix: string := "Бан через команду в іншому чаті: "
  const KickElsewherePrefix: string := "Кік через команду в іншому чаті: "

  function ElsewhereReason(action: Action, reason: string): string
  {
    match action
    case BanAction => BanElsewherePrefix + reason
    case KickAction => KickElsewherePrefix + reason
  }

  function StatusOf(f: Fault): ChatStatus
  {
    if f == OtherError then Fatal else Failed
  }

  /** The action completes in chat `c`: a ban needs the ban call, a kick the ban and the unban call. */
  predicate SucceedsIn(env: Env, action: Action, c: ChatId)
  {
    (BanOp, c) !in env.faults && (action == KickAction ==> (UnbanOp, c) !in env.faults)
  }

  /** The action aborts in chat `c`: the first failing call raised something other than a bad request. */
  predicate AbortsIn(env: Env, action: Action, c: ChatId)
  {
    env.FaultOf(BanOp, c) == Some(OtherError)
    || (action == KickAction && (BanOp, c) !in env.faults && env.FaultOf(UnbanOp, c) == Some(OtherError))
  }

  /** The provider calls one attempt in chat `c` makes: kick unbans only after a successful ban. */
  function CallsIn(env: Env, action: Action, c: ChatId, user: UserId): (r: seq<Call>)
    ensures |r| >= 1 && r[0] == Call(BanOp, c, user, env.FaultOf(BanOp, c))
    ensures action == BanAction ==> |r| == 1
    ensures forall i :: 0 <= i < |r| ==> r[i].chat == c && r[i].user == user
    ensures forall i :: 1 <= i < |r| ==> r[i].op == UnbanOp
    ensures action == KickAction && (BanOp, c) !in env.faults ==> r == [r[0], Call(UnbanOp, c, user, env.FaultOf(UnbanOp, c))]
    ensures (BanOp, c) in env.faults ==> |r| == 1
  {
    var ban := Call(BanOp, c, user, env.FaultOf(BanOp, c));
    if action == KickAction && (BanOp, c) !in env.faults then [ban, Call(UnbanOp, c, user, env.FaultOf(UnbanOp, c))]
    else [ban]
  }

  function EntryFor(action: Action, t: Task, c: ChatId, reason: string): Entry
  {
    Entry(t.user, c, if action == BanAction then Ban else Kick, reason, None, Some(t.moderator))
  }

  /**
   * One attempt in chat `c`: `ban_chat_member` (then `unban_chat_member` for
   * a kick); only once the provider calls succeeded, `add_ban` (for a ban)
   * and `log_punishment`. Kicks never write the bans table.
   */
  function ActIn(action: Action, w: World, env: Env, t: Task, c: ChatId, reason: string): (r: ChatStep)
    ensures r.status == Done <==> SucceedsIn(env, action, c)
    ensures r.status == Fatal <==> AbortsIn(env, action, c)
    ensures r.world.calls == w.calls + CallsIn(env, action, c, t.user)
    ensures r.world.log == w.log + (if r.status == Done && env.dbUp then [EntryFor(action, t, c, reason)] else [])
    ensures action == BanAction && r.status == Done && env.dbUp ==>
      r.world.bans == w.bans[(t.user, c) := reason]
    ensures action == KickAction || r.status != Done || !env.dbUp ==> r.world.bans == w.bans
    ensures r.world.warnings == w.warnings
  {
    var f := env.FaultOf(BanOp, c);
    var w1 := w.Record(BanOp, c, t.user, f);
    if f.Some? then ChatStep(w1, StatusOf(f.value))
    else if action == BanAction then
      ChatStep(w1.AddBan(env.dbUp, (t.user, c), reason).Log(env.dbUp, EntryFor(action, t, c, reason)), Done)
    else
      var g := env.FaultOf(UnbanOp, c);
      var w2 := w1.Record(UnbanOp, c, t.user, g);
      if g.Some? then ChatStep(w2, StatusOf(g.value))
      else ChatStep(w2.Log(env.dbUp, EntryFor(action, t, c, reason)), Done)
  }

  /** The chats the loop acts in: every listed chat other than the origin where the user is present, in list order. */
  function Eligible(chats: seq<ChatId>, origin: ChatId, user: UserId, present: set<(ChatId, UserId)>): (r: seq<ChatId>)
    ensures |r| <= |chats|
    decreases |chats|
  {
    if |chats| == 0 then []
    else
      var rest := Eligible(chats[1..], origin, user, present);
      if chats[0] != origin && (chats[0], user) in present then [chats[0]] + rest else rest
  }

  lemma EligibleCons(chats: seq<ChatId>, origin: ChatId, user: UserId, present: set<(ChatId, UserId)>)
    requires |chats| > 0 && chats[0] != origin && (chats[0], user) in present
    ensures Eligible(chats, origin, user, present) == [chats[0]] + Eligible(chats[1..], origin, user, present)
  {
  }

  /** A chat is acted in exactly when it is listed, is not the origin, and has the user present. */
  lemma {:induction false} EligibleMembers(chats: seq<ChatId>, origin: ChatId, user: UserId, present: set<(ChatId, UserId)>, c: ChatId)
    ensures c in Eligible(chats, origin, user, present) <==> c in chats && c != origin && (c, user) in present
    decreases |chats|
  {
    if |chats| > 0 {
      EligibleMembers(chats[1..], origin, user, present, c);
      assert chats == [chats[0]] + chats[1..];
    }
  }

  /** Each eligible chat is acted in as often as it is listed, every other chat never. */
  lemma {:induction false} EligibleCount(chats: seq<ChatId>, origin: ChatId, user: UserId, present: set<(ChatId, UserId)>, c: ChatId)
    ensures Count(Eligible(chats, origin, user, present), c)
      == if c != origin && (c, user) in present then Count(chats, c) else 0
    decreases |chats|
  {
    if |chats| > 0 {
      EligibleCount(chats[1..], origin, user, present, c);
      var rest := Eligible(chats[1..], origin, user, present);
      if chats[0] != origin && (chats[0], user) in present {
        assert ([chats[0]] + rest)[1..] == rest;
      }
    }
  }

  /** The reference trace of calls for a list of chats: each chat's calls, in order. */
  function CallsFor(env: Env, action: Action, cs: seq<ChatId>, user: UserId): seq<Call>
    decreases |cs|
  {
    if |cs| == 0 then [] else CallsIn(env, action, cs[0], user) + CallsFor(env, action, cs[1..], user)
  }

  /** The row propagation logs for chat `c`, if the action completes there. */
  function EntriesIn(env: Env, action: Action, t: Task, c: ChatId): seq<Entry>
  {
    if SucceedsIn(env, action, c) then [EntryFor(action, t, c, ElsewhereReason(action, t.reason))] else []
  }

  /** The reference log rows for a list of chats: one row per chat where the action completes. */
  function EntriesFor(env: Env, action: Action, t: Task, cs: seq<ChatId>): seq<Entry>
    decreases |cs|
  {
    if |cs| == 0 then [] else EntriesIn(env, action, t, cs[0]) + EntriesFor(env, action, t, cs[1..])
  }

  /**
   * The propagation loop. It never removes a log row, a call or a ban row
   * already written, never touches another user's bans, and never touches
   * the warnings.
   */
  function Propagate(action: Action, w: World, env: Env, t: Task, chats: seq<ChatId>): (r: Step)
    ensures Extends(w.log, r.world.log) && Extends(w.calls, r.world.calls)
    ensures forall k :: k in w.bans ==> k in r.world.bans
    ensures forall k: Key :: k.0 != t.user ==> (k in r.world.bans <==> k in w.bans)
    ensures forall k: Key :: k in w.bans && k.0 != t.user ==> r.world.bans[k] == w.bans[k]
    ensures action == KickAction ==> r.world.bans == w.bans
    ensures r.world.warnings == w.warnings
    decreases |chats|
  {
    if |chats| == 0 then Step(w, false)
    else
      var c := chats[0];
      if c == t.chat || (c, t.user) !in env.present then Propagate(action, w, env, t, chats[1..])
      else
        var s := ActIn(action, w, env, t, c, ElsewhereReason(action, t.reason));
        assert Extends(w.log, s.world.log) && Extends(w.calls, s.world.calls);
        if s.status == Fatal then Step(s.world, true)
        else if s.status == Done && env.FaultOf(SendOp, c) == Some(OtherError) then Step(s.world, true)
        else
          var r := Propagate(action, s.world, env, t, chats[1..]);
          ExtendsTrans(w.log, s.world.log, r.world.log);
          ExtendsTrans(w.calls, s.world.calls, r.world.calls);
          r
  }

  /** With only bad requests, an eligible chat never stops the loop: it continues from the state after that chat. */
  lemma ContinuesPast(action: Action, w: World, env: Env, t: Task, chats: seq<ChatId>)
    requires env.OnlyBadRequests()
    requires |chats| > 0 && chats[0] != t.chat && (chats[0], t.user) in env.present
    ensures Propagate(action, w, env, t, chats)
      == Propagate(action, ActIn(action, w, env, t, chats[0], ElsewhereReason(action, t.reason)).world, env, t, chats[1..])
  {
    var c := chats[0];
    var s := ActIn(action, w, env, t, c, ElsewhereReason(action, t.reason));
    assert s.status != Fatal by {
      if (BanOp, c) in env.faults { assert env.faults[(BanOp, c)] == BadRequest; }
      if (UnbanOp, c) in env.faults { assert env.faults[(UnbanOp, c)] == BadRequest; }
    }
    assert env.FaultOf(SendOp, c) != Some(OtherError) by {
      if (SendOp, c) in env.faults { assert env.faults[(SendOp, c)] == BadRequest; }
    }
  }

  /** With only bad requests, the loop runs to the end of the list and raises nothing. */
  lemma {:induction false} PropagateCompletes(action: Action, w: World, env: Env, t: Task, chats: seq<ChatId>)
    requires env.OnlyBadRequests()
    ensures !Propagate(action, w, env, t, chats).raised
    decreases |chats|
  {
    if |chats| > 0 {
      var c := chats[0];
      if c == t.chat || (c, t.user) !in env.present {
        PropagateCompletes(action, w, env, t, chats[1..]);
      } else {
        ContinuesPast(action, w, env, t, chats);
        PropagateCompletes(action, ActIn(action, w, env, t, c, ElsewhereReason(action, t.reason)).world, env, t, chats[1..]);
      }
    }
  }

  /**
   * With only bad requests, the calls made are exactly one attempt per
   * eligible chat, in list order: every such chat gets its ban call, and a
   * failure in one never keeps the next from being tried.
   */
  lemma {:induction false} PropagateCalls(action: Action, w: World, env: Env, t: Task, chats: seq<ChatId>)
    requires env.OnlyBadRequests()
    ensures Propagate(action, w, env, t, chats).world.calls
      == w.calls + CallsFor(env, action, Eligible(chats, t.chat, t.user, env.present), t.user)
    decreases |chats|
  {
    if |chats| > 0 {
      var c := chats[0];
      if c == t.chat || (c, t.user) !in env.present {
        PropagateCalls(action, w, env, t, chats[1..]);
      } else {
        var s := ActIn(action, w, env, t, c, ElsewhereReason(action, t.reason));
        ContinuesPast(action, w, env, t, chats);
        PropagateCalls(action, s.world, env, t, chats[1..]);
        CallsStep(env, action, chats, t.chat, t.user, w.calls, s.world.calls, Propagate(action, w, env, t, chats).world.calls);
      }
    }
  }

  /** The inductive step of `PropagateCalls` for an eligible first chat, whose calls are `mid`. */
  lemma CallsStep(env: Env, action: Action, chats: seq<ChatId>, origin: ChatId, user: UserId, before: seq<Call>, mid: seq<Call>, result: seq<Call>)
    requires |chats| > 0 && chats[0] != origin && (chats[0], user) in env.present
    requires mid == before + CallsIn(env, action, chats[0], user)
    requires result == mid + CallsFor(env, action, Eligible(chats[1..], origin, user, env.present), user)
    ensures result == before + CallsFor(env, action, Eligible(chats, origin, user, env.present), user)
  {
    var rest := Eligible(chats[1..], origin, user, env.present);
    EligibleCons(chats, origin, user, env.present);
    CallsForCons(env, action, chats[0], rest, user);
    var head := CallsIn(env, action, chats[0], user);
    var tail := CallsFor(env, action, rest, user);
    assert before + head + tail == before + (head + tail);
  }

  lemma CallsForCons(env: Env, action: Action, c: ChatId, rest: seq<ChatId>, user: UserId)
    ensures CallsFor(env, action, [c] + rest, user) == CallsIn(env, action, c, user) + CallsFor(env, action, rest, user)
  {
    assert ([c] + rest)[1..] == rest;
  }

  /** With only bad requests, the log gains one row per eligible chat where the action completed, in list order. */
  lemma {:induction false} PropagateLog(action: Action, w: World, env: Env, t: Task, chats: seq<ChatId>)
    requires env.OnlyBadRequests()
    ensures Propagate(action, w, env, t, chats).world.log
      == w.log + (if env.dbUp then EntriesFor(env, action, t, Eligible(chats, t.chat, t.user, env.present)) else [])
    decreases |chats|
  {
    if |chats| > 0 {
      var c := chats[0];
      if c == t.chat || (c, t.user) !in env.present {
        PropagateLog(action, w, env, t, chats[1..]);
      } else {
        var s := ActIn(action, w, env, t, c, ElsewhereReason(action, t.reason));
        ContinuesPast(action, w, env, t, chats);
        PropagateLog(action, s.world, env, t, chats[1..]);
        if env.dbUp {
          assert s.world.log == w.log + EntriesIn(env, action, t, c);
          LogStep(env, action, t, chats, w.log, s.world.log, Propagate(action, w, env, t, chats).world.log);
        }
      }
    }
  }

  /** The inductive step of `PropagateLog` for an eligible first chat, after which the log is `mid`. */
  lemma LogStep(env: Env, action: Action, t: Task, chats: seq<ChatId>, before: seq<Entry>, mid: seq<Entry>, result: seq<Entry>)
    requires |chats| > 0 && chats[0] != t.chat && (chats[0], t.user) in env.present
    requires mid == before + EntriesIn(env, action, t, chats[0])
    requires result == mid + EntriesFor(env, action, t, Eligible(chats[1..], t.chat, t.user, env.present))
    ensures result == before + EntriesFor(env, action, t, Eligible(chats, t.chat, t.user, env.present))
  {
    var rest := Eligible(chats[1..], t.chat, t.user, env.present);
    EligibleCons(chats, t.chat, t.user, env.present);
    EntriesForCons(env, action, t, chats[0], rest);
    var head := EntriesIn(env, action, t, chats[0]);
    var tail := EntriesFor(env, action, t, rest);
    assert before + head + tail == before + (head + tail);
  }

  lemma EntriesForCons(env: Env, action: Action, t: Task, c: ChatId, rest: seq<ChatId>)
    ensures EntriesFor(env, action, t, [c] + rest) == EntriesIn(env, action, t, c) + EntriesFor(env, action, t, rest)
  {
    assert ([c] + rest)[1..] == rest;
  }

  /**
   * With only bad requests, the user ends up with a ban row in exactly the
   * chats where a row existed before or the propagated ban completed.
   */
  lemma {:induction false} PropagatedBanRows(w: World, env: Env, t: Task, chats: seq<ChatId>, c: ChatId)
    requires env.OnlyBadRequests()
    ensures (t.user, c) in Propagate(BanAction, w, env, t, chats).world.bans <==>
      ((t.user, c) in w.bans
       || (env.dbUp && c in Eligible(chats, t.chat, t.user, env.present) && SucceedsIn(env, BanAction, c)))
    decreases |chats|
  {
    if |chats| > 0 {
      var d := chats[0];
      if d == t.chat || (d, t.user) !in env.present {
        PropagatedBanRows(w, env, t, chats[1..], c);
      } else {
        ContinuesPast(BanAction, w, env, t, chats);
        PropagatedBanRows(ActIn(BanAction, w, env, t, d, ElsewhereReason(BanAction, t.reason)).world, env, t, chats[1..], c);
      }
    }
  }

  /** Number of ban calls made in chat `c`. */
  function BanCallsIn(calls: seq<Call>, c: ChatId): nat
  {
    if |calls| == 0 then 0
    else (if calls[0].op == BanOp && calls[0].chat == c then 1 else 0) + BanCallsIn(calls[1..], c)
  }

  lemma {:induction false} BanCallsAppend(a: seq<Call>, b: seq<Call>, c: ChatId)
    ensures BanCallsIn(a + b, c) == BanCallsIn(a, c) + BanCallsIn(b, c)
    decreases |a|
  {
    if |a| > 0 {
      assert (a + b)[1..] == a[1..] + b;
      BanCallsAppend(a[1..], b, c);
    } else {
      assert a + b == b;
    }
  }

  /** The reference trace holds one ban call per occurrence of a chat in the list. */
  lemma {:induction false} OneBanCallPerChat(env: Env, action: Action, cs: seq<ChatId>, user: UserId, c: ChatId)
    ensures BanCallsIn(CallsFor(env, action, cs, user), c) == Count(cs, c)
    decreases |cs|
  {
    if |cs| > 0 {
      var head := CallsIn(env, action, cs[0], user);
      BanCallsAppend(head, CallsFor(env, action, cs[1..], user), c);
      OneBanCallPerChat(env, action, cs[1..], user, c);
      assert BanCallsIn(head, c) == (if cs[0] == c then 1 else 0) by {
        if |head| == 2 {
          assert head[1..][1..] == [];
        } else {
          assert head[1..] == [];
        }
      }
    }
  }
}

=== FILE: provider.dfy ===
/**
 * The chat provider (Telegram through aiogram and Telethon) as data: which
 * calls fail in which chat, who is present where, what the bot's own status
 * is in each chat, and the dialogs Telethon lists. Also the store's
 * reachability, which is fixed for one handler run.
 */
module Provider {
  import opened Types

  /** The moderation calls the handlers make, plus the notification they send afterwards. */
  datatype ApiOp = BanOp | UnbanOp | RestrictOp | SendOp

  /**
   * `BadRequest` is aiogram's `TelegramBadRequest`, the only exception the
   * handlers catch per chat; `OtherError` is any other exception, which
   * escapes the handler and reaches the worker.
   */
  datatype Fault = BadRequest | OtherError

  /** `chat_member.status` as returned by `get_chat_member`. */
  datatype MemberStatus = Creator | Administrator | Member | Restricted | Left | Kicked

  /** A Telethon dialog entity: a channel or supergroup, a basic group, or anything else (a private chat). */
  datatype Dialog = ChannelDialog(id: int) | GroupDialog(id: int) | OtherDialog

  /**
   * One view of `iter_dialogs` for `get_bot_chats`.
   * `ready`   — the Telethon client exists and connects;
   * `status`  — the bot's status per aiogram chat id; a missing chat is a failing `get_chat_member`;
   * `floods`  — the flood-wait signals (seconds) raised by successive invocations before one completes;
   * `cut`     — `Some(k)`: the completing invocation raises a non-flood error after `k` dialogs.
   */
  datatype Listing = Listing(
    ready: bool,
    dialogs: seq<Dialog>,
    status: map<ChatId, MemberStatus>,
    floods: seq<nat>,
    cut: Option<nat>)

  /**
   * The environment of one handler run. A call (op, chat) absent from
   * `faults` succeeds. `present` answers `is_user_in_chat`, which itself
   * turns every error into "absent".
   */
  datatype Env = Env(
    dbUp: bool,
    faults: map<(ApiOp, ChatId), Fault>,
    present: set<(ChatId, UserId)>,
    listing: Listing)
  {
    function FaultOf(op: ApiOp, chat: ChatId): (r: Option<Fault>)
      ensures r.Some? <==> (op, chat) in faults
    {
      if (op, chat) in faults then Some(faults[(op, chat)]) else None
    }

    /** No call raises anything but `TelegramBadRequest`. */
    predicate OnlyBadRequests()
    {
      forall k :: k in faults ==> faults[k] == BadRequest
    }
  }
}

=== FILE: tasks.dfy ===
/** `ModerationTask`: the flat record producers push onto the queue. */
module Tasks {
  import opened Types

  /**
   * `taskType` stays a string, as in the source: the worker compares it
   * against eight literals and ignores anything else.
   */
  datatype Task = Task(
    taskType: string,
    user: UserId,
    username: Option<string>,
    reason: string,
    chat: ChatId,
    moderator: UserId,
    duration: Option<int>)
}

=== FILE: types.dfy ===
/** Identifiers and small generic helpers shared by the moderation model. */
module Types {

  /** Telegram user ids and chat ids (chat ids are negative for groups). */
  type UserId = int
  type ChatId = int

  /** A (user, chat) pair: the primary key of the warnings and bans tables. */
  type Key = (UserId, ChatId)

  datatype Option<+T> = None | Some(value: T)

  /** Number of occurrences of `x` in `s`. */
  function Count<T(==)>(s: seq<T>, x: T): nat
  {
    if |s| == 0 then 0 else (if s[0] == x then 1 else 0) + Count(s[1..], x)
  }

  /** Every element occurs at most once. */
  predicate NoDup<T(==)>(s: seq<T>)
  {
    forall i, j :: 0 <= i < j < |s| ==> s[i] != s[j]
  }

  lemma {:induction false} CountAppend<T>(a: seq<T>, b: seq<T>, x: T)
    ensures Count(a + b, x) == Count(a, x) + Count(b, x)
  {
    if |a| == 0 {
      assert a + b == b;
    } else {
      assert (a + b)[1..] == a[1..] + b;
      CountAppend(a[1..], b, x);
    }
  }

  /** In a duplicate-free sequence an element occurs once when present and never otherwise. */
  lemma {:induction false} CountNoDup<T>(s: seq<T>, x: T)
    requires NoDup(s)
    ensures Count(s, x) == if x in s then 1 else 0
  {
    if |s| > 0 {
      assert NoDup(s[1..]) by {
        forall i, j | 0 <= i < j < |s[1..]| ensures s[1..][i] != s[1..][j] {
          assert s[1..][i] == s[i + 1] && s[1..][j] == s[j + 1];
        }
      }
      CountNoDup(s[1..], x);
      if s[0] == x {
        assert x !in s[1..] by {
          forall k | 0 <= k < |s[1..]| ensures s[1..][k] != x {
            assert s[1..][k] == s[k + 1];
          }
        }
      } else {
        assert x in s <==> x in s[1..] by {
          assert s == [s[0]] + s[1..];
        }
      }
    }
  }
}

=== FILE: worker.dfy ===
/**
 * The moderation queue and `moderation_worker`. Producers `rpush` a
 * JSON-encoded task onto the tail of `moderation_queue`; the worker
 * `blpop`s from the head, decodes, and dispatches on `task_type`. Any
 * exception, from decoding or from a handler, is swallowed and the loop
 * goes on with the next element, so each element is handled at most once.
 */
module Worker {
  import opened Types
  import opened Provider
  import opened World
  import opened Tasks
  import opened Propagation
  import Handlers
  import Ledger

  /** A queue element: a task that decodes, or a payload `ModerationTask(**json.loads(...))` rejects. */
  datatype Payload = Decoded(task: Task) | Undecodable

  type Queue = seq<Payload>

  /**
   * `add_task_to_queue`: `rpush` puts the new element at the tail. `rpush`
   * replies with the new length, which `add_task_to_queue` drops; the
   * producers read the position back with `get_queue_length`.
   */
  function Push(q: Queue, t: Task): (r: (Queue, nat))
    ensures r.1 == |r.0| == |q| + 1
    ensures r.0[..|q|] == q && r.0[|q|] == Decoded(t)
  {
    (q + [Decoded(t)], |q| + 1)
  }

  /** `get_queue_length` (`llen`). */
  function QueueLength(q: Queue): (r: nat)
    ensures r == 0 <==> q == []
  {
    |q|
  }

  /**
   * The length counts elements: a push adds one, a pop removes one, and right
   * after a push the reported length is the position of the pushed task, the
   * "Позиція" the producers reply with.
   */
  lemma QueueLengthCounts(q: Queue, t: Task)
    ensures QueueLength(Push(q, t).0) == QueueLength(q) + 1
    ensures q != [] ==> QueueLength(Pop(q).value.1) == QueueLength(q) - 1
    ensures Push(q, t).0[QueueLength(Push(q, t).0) - 1] == Decoded(t)
  {
  }

  /** `blpop`: the head and the rest, or nothing on an empty queue (the worker then sleeps and polls again). */
  function Pop(q: Queue): (r: Option<(Payload, Queue)>)
    ensures r.None? <==> q == []
    ensures r.Some? ==> [r.value.0] + r.value.1 == q
  {
    if q == [] then None else Some((q[0], q[1..]))
  }

  /** Pushing at the tail never changes what the next pop returns from a non-empty queue. */
  lemma PushPop(q: Queue, t: Task)
    ensures q == [] ==> Pop(Push(q, t).0) == Some((Decoded(t), []))
    ensures q != [] ==> Pop(Push(q, t).0) == Some((q[0], Push(q[1..], t).0))
  {
    if q != [] {
      assert (q + [Decoded(t)])[1..] == q[1..] + [Decoded(t)];
    }
  }

  /** The eight `task_type` values the worker recognises. */
  const KnownTypes: set<string> := {"mute", "ban", "kick", "warn", "info", "unban", "unmute", "unwarn"}

  /** The handler matching `task_type`; anything else falls through every `elif` and does nothing. */
  function Dispatch(w: World, env: Env, p: Payload): (r: Step)
    ensures p.Undecodable? ==> r.world == w
    ensures p.Decoded? && p.task.taskType !in KnownTypes ==> r.world == w
    ensures p.Decoded? && p.task.taskType == "info" ==> r.world == w
    ensures p.Decoded? && p.task.taskType == "ban" ==> r == Handlers.BanUser(w, env, p.task)
    ensures p.Decoded? && p.task.taskType == "kick" ==> r == Handlers.KickUser(w, env, p.task)
    ensures p.Decoded? && p.task.taskType == "warn" ==> r == Handlers.WarnUser(w, env, p.task)
    ensures p.Decoded? && p.task.taskType == "mute" ==> r == Handlers.MuteUser(w, env, p.task)
    ensures p.Decoded? && p.task.taskType == "unban" ==> r == Handlers.UnbanUser(w, env, p.task)
    ensures p.Decoded? && p.task.taskType == "unmute" ==> r == Handlers.UnmuteUser(w, env, p.task)
    ensures p.Decoded? && p.task.taskType == "unwarn" ==> r == Handlers.UnwarnUser(w, env, p.task).0
  {
    match p
    case Undecodable => Step(w, true)
    case Decoded(t) =>
      if t.taskType == "mute" then Handlers.MuteUser(w, env, t)
      else if t.taskType == "ban" then Handlers.BanUser(w, env, t)
      else if t.taskType == "kick" then Handlers.KickUser(w, env, t)
      else if t.taskType == "warn" then Handlers.WarnUser(w, env, t)
      else if t.taskType == "info" then Step(w, Handlers.SendFails(env, t.chat))
      else if t.taskType == "unban" then Handlers.UnbanUser(w, env, t)
      else if t.taskType == "unmute" then Handlers.UnmuteUser(w, env, t)
      else if t.taskType == "unwarn" then Handlers.UnwarnUser(w, env, t).0
      else Step(w, false)
  }

  /** The tasks of `q` that reach a handler, in queue order. */
  function Handled(q: Queue): (r: seq<Task>)
    ensures |r| <= |q|
    ensures forall t :: t in r ==> Decoded(t) in q && t.taskType in KnownTypes
  {
    if q == [] then []
    else if q[0].Decoded? && q[0].task.taskType in KnownTypes then [q[0].task] + Handled(q[1..])
    else Handled(q[1..])
  }

  /**
   * The state after the worker has emptied `q`, with the provider and the
   * store fixed for the run. An exception in one element does not stop the
   * next: the `raised` flag is dropped.
   */
  function Drain(w: World, env: Env, q: Queue): World
    decreases |q|
  {
    if q == [] then w else Drain(Dispatch(w, env, q[0]).world, env, q[1..])
  }

  /** Draining two queues one after the other is draining their concatenation: each element once, in order. */
  lemma {:induction false} DrainAppend(w: World, env: Env, q1: Queue, q2: Queue)
    ensures Drain(w, env, q1 + q2) == Drain(Drain(w, env, q1), env, q2)
    decreases |q1|
  {
    if q1 != [] {
      assert (q1 + q2)[0] == q1[0] && (q1 + q2)[1..] == q1[1..] + q2;
      assert Drain(w, env, q1) == Drain(Dispatch(w, env, q1[0]).world, env, q1[1..]);
      DrainAppend(Dispatch(w, env, q1[0]).world, env, q1[1..], q2);
    } else {
      assert q1 + q2 == q2;
    }
  }

  /** A task pushed onto the tail is handled after everything already queued, exactly once. */
  lemma PushThenDrain(w: World, env: Env, q: Queue, t: Task)
    ensures Drain(w, env, Push(q, t).0) == Dispatch(Drain(w, env, q), env, Decoded(t)).world
  {
    DrainAppend(w, env, q, [Decoded(t)]);
  }

  /** Payloads that reach no handler can be dropped from the queue without changing the outcome. */
  lemma {:induction false} IgnoredPayloadsChangeNothing(w: World, env: Env, q: Queue)
    ensures Drain(w, env, q) == Drain(w, env, Known(q))
    decreases |q|
  {
    if q != [] {
      IgnoredPayloadsChangeNothing(Dispatch(w, env, q[0]).world, env, q[1..]);
      if q[0].Decoded? && q[0].task.taskType in KnownTypes {
        assert Known(q)[1..] == Known(q[1..]);
      }
    }
  }

  /** The elements of `q` that reach a handler. */
  function Known(q: Queue): (r: Queue)
    ensures |r| <= |q|
    ensures forall p :: p in r ==> p in q && p.Decoded? && p.task.taskType in KnownTypes
  {
    if q == [] then []
    else if q[0].Decoded? && q[0].task.taskType in KnownTypes then [q[0]] + Known(q[1..])
    else Known(q[1..])
  }

  /** `Handled` is `Known` read as tasks: the same elements, in the same order. */
  lemma {:induction false} HandledIsKnown(q: Queue)
    ensures |Handled(q)| == |Known(q)|
    ensures forall i :: 0 <= i < |Known(q)| ==> Known(q)[i] == Decoded(Handled(q)[i])
    decreases |q|
  {
    if q != [] {
      HandledIsKnown(q[1..]);
    }
  }

  /**
   * The worker loop, run until the queue is empty: pop the head, dispatch
   * it, swallow whatever it raised, and go on.
   */
  method RunWorker(w: World, env: Env, q: Queue) returns (final: World, handled: seq<Task>)
    ensures final == Drain(w, env, q)
    ensures handled == Handled(q)
  {
    final := w;
    handled := [];
    var rest := q;
    while rest != []
      invariant Drain(final, env, rest) == Drain(w, env, q)
      invariant handled + Handled(rest) == Handled(q)
      decreases |rest|
    {
      var next := Pop(rest);
      var p := next.value.0;
      assert p == rest[0] && next.value.1 == rest[1..];
      var step := Dispatch(final, env, p);
      if p.Decoded? && p.task.taskType in KnownTypes {
        handled := handled + [p.task];
      }
      final := step.world;
      rest := next.value.1;
    }
  }

  /** A warn task, as `cmd_warn` enqueues it. */
  function WarnTask(user: UserId, chat: ChatId, moderator: UserId, reason: string): Task
  {
    Task("warn", user, None, reason, chat, moderator, None)
  }

  /**
   * Three warnings of a user who had none, with the store up and every
   * provider call succeeding: the counter ends at 3, the log gains
   * warn, warn, warn and the escalation "kick", and exactly one ban call is
   * made, in the origin chat.
   */
  lemma ThreeWarnsEscalate(w: World, env: Env, user: UserId, chat: ChatId, moderator: UserId, reason: string)
    requires env.dbUp && env.faults == map[]
    requires (user, chat) !in w.warnings
    ensures var t := WarnTask(user, chat, moderator, reason);
      var r := Drain(w, env, [Decoded(t), Decoded(t), Decoded(t)]);
      var warn := Entry(user, chat, Warn, reason, None, Some(moderator));
      && Ledger.Stored(r.warnings, (user, chat)) == 3
      && r.log == w.log + [warn, warn, warn, Entry(user, chat, Kick, Handlers.EscalationReason, None, Some(moderator))]
      && r.calls == w.calls + [Call(BanOp, chat, user, None)]
      && r.bans == w.bans
  {
    var t := WarnTask(user, chat, moderator, reason);
    var k := (user, chat);
    var warn := Entry(user, chat, Warn, reason, None, Some(moderator));
    var w1 := Handlers.WarnUser(w, env, t).world;
    var w2 := Handlers.WarnUser(w1, env, t).world;
    var w3 := Handlers.WarnUser(w2, env, t).world;
    assert Ledger.Stored(w1.warnings, k) == 1 && w1.log == w.log + [warn] && w1.calls == w.calls;
    assert Ledger.Stored(w2.warnings, k) == 2 && w2.log == w1.log + [warn] && w2.calls == w.calls;
    assert Ledger.Stored(w3.warnings, k) == 3;
    assert Handlers.WarnRows(w2, env, t) == [warn, Entry(user, chat, Kick, Handlers.EscalationReason, None, Some(moderator))];
    assert [Decoded(t), Decoded(t), Decoded(t)][1..] == [Decoded(t), Decoded(t)];
    assert Drain(w2, env, [Decoded(t)]) == w3;
  }
}

=== FILE: world.dfy ===
/**
 * The persistent state the handlers change — warnings, bans, the
 * punishments table — and the trace of moderation calls made to the chat
 * provider. Store writes mirror `add_ban`, `remove_ban`, `log_punishment`
 * and `remove_mute`: each swallows its own errors, so an unreachable store
 * simply leaves the state unchanged.
 */
module World {
  import opened Types
  import opened Provider
  import Ledger

  datatype PunishmentType = Ban | Kick | Mute | Warn

  /** A row of the punishments table; the timestamp is left out. */
  datatype Entry = Entry(
    user: UserId,
    chat: ChatId,
    kind: PunishmentType,
    reason: string,
    duration: Option<int>,
    moderator: Option<UserId>)

  /** One moderation call to the provider and how it ended (`None`: it succeeded). */
  datatype Call = Call(op: ApiOp, chat: ChatId, user: UserId, fault: Option<Fault>)

  datatype World = World(
    warnings: Ledger.Warnings,
    bans: map<Key, string>,
    log: seq<Entry>,
    calls: seq<Call>)
  {
    /** `log_punishment`: append one row when the store is reachable. */
    function Log(dbUp: bool, e: Entry): (r: World)
      ensures r.log == if dbUp then log + [e] else log
      ensures r.warnings == warnings && r.bans == bans && r.calls == calls
    {
      if dbUp then this.(log := log + [e]) else this
    }

    /** `add_ban`: upsert the reason of a (user, chat) ban row. */
    function AddBan(dbUp: bool, k: Key, reason: string): (r: World)
      ensures dbUp ==> k in r.bans && r.bans[k] == reason && r.bans.Keys == bans.Keys + {k}
      ensures !dbUp ==> r.bans == bans
      ensures forall k' :: k' in bans && k' != k ==> k' in r.bans && r.bans[k'] == bans[k']
      ensures r.warnings == warnings && r.log == log && r.calls == calls
    {
      if dbUp then this.(bans := bans[k := reason]) else this
    }

    /** `remove_ban`: delete the (user, chat) ban row. */
    function RemoveBan(dbUp: bool, k: Key): (r: World)
      ensures dbUp ==> k !in r.bans && r.bans.Keys == bans.Keys - {k}
      ensures !dbUp ==> r.bans == bans
      ensures forall k' :: k' in bans && k' != k ==> k' in r.bans && r.bans[k'] == bans[k']
      ensures r.warnings == warnings && r.log == log && r.calls == calls
    {
      if dbUp then this.(bans := bans - {k}) else this
    }

    /** `remove_mute`: delete every `mute` row of (user, chat) from the punishments table. */
    function RemoveMute(dbUp: bool, user: UserId, chat: ChatId): (r: World)
      ensures r.warnings == warnings && r.bans == bans && r.calls == calls
      ensures !dbUp ==> r.log == log
      ensures dbUp ==> forall e :: e in r.log ==> !IsMuteOf(e, user, chat)
      ensures forall e :: !IsMuteOf(e, user, chat) ==> Count(r.log, e) == Count(log, e)
    {
      if dbUp then this.(log := DropMutes(log, user, chat)) else this
    }

    /** Record a call to the provider. */
    function Record(op: ApiOp, chat: ChatId, user: UserId, fault: Option<Fault>): (r: World)
      ensures r.calls == calls + [Call(op, chat, user, fault)]
      ensures r.warnings == warnings && r.bans == bans && r.log == log
    {
      this.(calls := calls + [Call(op, chat, user, fault)])
    }
  }

  predicate IsMuteOf(e: Entry, user: UserId, chat: ChatId)
  {
    e.user == user && e.chat == chat && e.kind == Mute
  }

  /**
   * The rows `remove_mute` keeps: no mute row of (user, chat) survives, and
   * every other row keeps its number of occurrences.
   */
  function DropMutes(log: seq<Entry>, user: UserId, chat: ChatId): (r: seq<Entry>)
    ensures forall e :: e in r ==> e in log && !IsMuteOf(e, user, chat)
    ensures forall e :: !IsMuteOf(e, user, chat) ==> Count(r, e) == Count(log, e)
    ensures |r| <= |log|
    decreases |log|
  {
    if |log| == 0 then []
    else if IsMuteOf(log[0], user, chat) then DropMutes(log[1..], user, chat)
    else [log[0]] + DropMutes(log[1..], user, chat)
  }

  /** Append-only growth: `before` is a prefix of `after`. */
  predicate Extends<T(==)>(before: seq<T>, after: seq<T>)
  {
    |before| <= |after| && after[..|before|] == before
  }

  /** `remove_ban` undoes an `add_ban` of a pair that had no row: the table comes back exactly as it was. */
  lemma BanThenUnban(w: World, k: Key, reason: string)
    requires k !in w.bans
    ensures w.AddBan(true, k, reason).RemoveBan(true, k) == w
  {
    assert w.AddBan(true, k, reason).RemoveBan(true, k).bans == w.bans;
  }

  lemma ExtendsTrans<T>(a: seq<T>, b: seq<T>, c: seq<T>)
    requires Extends(a, b) && Extends(b, c)
    ensures Extends(a, c)
  {
    assert c[..|a|] == c[..|b|][..|a|];
  }
}
